=== FILE: README.md ===
# PDF extraction pipeline: markdown fallback, section structure and chunking

This project is a Dafny model of the pure core of a PDF-to-retrieval pipeline.
The pipeline has three stages, and the model follows each one.

- **Extraction** (`src/extractor.py`). Each page gets markdown from pymupdf4llm. When that markdown
  is much shorter than the page's raw text, it is replaced by a cleaned copy of the raw text with
  the page's tables appended as pipe tables.
- **Structure** (`src/structure_parser.py`). The page markdown is laid out as one text with a
  page-offset table. Font sizes then decide which spans are headings. Wrapped heading lines are
  merged, each heading is located in the text, and the text between consecutive headings becomes a
  section. A document without usable headings gets one section per non-blank page.
- **Chunking** (`src/chunker.py`). Sections (or pages) become retrieval chunks: one chunk for a
  short text, one chunk per splitter piece for a long one, and one chunk per table.

Everything the pipeline reads from foreign libraries enters the model as an input:

- the markdown, raw text and tables of a page;
- the text spans of the document, as `(text, page, size)` with the size in tenths of a point;
- the text splitter, as a function from a string to a list of strings;
- the md5 digest, as a function from a string to a string.

Python's string operations are written out in module `Text`. `strip` uses the `str.isspace`
character set; `split`, `join`, `find`, `s[:n]` and `str(int)` follow Python's definitions.

Modules: `Text`, `Models` (the records of `src/models.py`), `Markdown`, `PageLayout`,
`FontSizes`, `Headings`, `Structure`, `Chunker`.

## Model

| member | source | states |
|---|---|---|
| Markdown.TableToMarkdown | SVI_Chatbot/Extractor/PDF/src/extractor.py:254-261 | A table serialises to "" exactly when its header list is empty; otherwise the text starts with the header row line. |
| Markdown.TableMarkdownLines | SVI_Chatbot/Extractor/PDF/src/extractor.py:258-261 | With newline-free cells, the markdown splits into exactly 2 + len(rows) lines: the header line, the separator line, then each row's line in order. |
| Markdown.SeparatorCells | SVI_Chatbot/Extractor/PDF/src/extractor.py:259 | The separator line splits on pipes into exactly one " --- " cell per header, framed by pipes. |
| Markdown.RowLineCells | SVI_Chatbot/Extractor/PDF/src/extractor.py:260 | A row line splits on pipes back into its cells, in their original order, each padded by one space, when no cell contains a pipe. |
| Markdown.TableMarkdownBlank | SVI_Chatbot/Extractor/PDF/src/chunker.py:186-192 | Table markdown is blank exactly when the table has no headers, so the chunker's blank-markdown test and the extractor's missing-headers test select the same tables. |
| Markdown.CleanLines | SVI_Chatbot/Extractor/PDF/src/extractor.py:117-125 | The cleaned line list never starts with "", never holds two "" in a row, and holds only stripped entries; it is no longer than the raw line list. |
| Markdown.CleanBlankRun | SVI_Chatbot/Extractor/PDF/src/extractor.py:119-123 | A run of blank raw lines adds at most one "" to the cleaned list: one exactly when the run is non-empty and the list so far ends in text. |
| Markdown.CleanGap | SVI_Chatbot/Extractor/PDF/src/extractor.py:117-125 | Between two consecutive non-blank raw lines the cleaned list holds one "" exactly when at least one blank raw line separates them, then the second line stripped. |
| Markdown.CleanTrailing | SVI_Chatbot/Extractor/PDF/src/extractor.py:119-123 | Blank raw lines after the last text line leave exactly one trailing "", and none when there are no such lines. |
| Markdown.CleanLeading | SVI_Chatbot/Extractor/PDF/src/extractor.py:119-125 | Blank raw lines before the first text line are dropped: the cleaned list starts with that line, stripped. |
| Markdown.CleanAllBlank | SVI_Chatbot/Extractor/PDF/src/extractor.py:119-123 | Raw text made only of blank lines cleans to the empty list. |
| Markdown.CleanEndsInText | SVI_Chatbot/Extractor/PDF/src/extractor.py:124-125 | When the last raw line has text, the cleaned list ends with that line, stripped. |
| Markdown.CleanKeepsText | SVI_Chatbot/Extractor/PDF/src/extractor.py:119-125 | Leaving out the "" separators, the cleaned list is exactly the non-blank raw lines, stripped, in their original order. |
| Markdown.CleanTextLines | SVI_Chatbot/Extractor/PDF/src/extractor.py:117-127 | The newline-joined text part splits back into the cleaned line list. |
| Markdown.TableMarkdowns | SVI_Chatbot/Extractor/PDF/src/extractor.py:114 | The kept table markdowns are never empty and number at most the tables. |
| Markdown.BuildFallbackMarkdown | SVI_Chatbot/Extractor/PDF/src/extractor.py:107-133 | The fallback markdown starts with the cleaned raw text; it is exactly that text when no table has headers, and otherwise continues with three newlines and more. |
| Markdown.FallbackLayout | SVI_Chatbot/Extractor/PDF/src/extractor.py:127-133 | The fallback markdown is the cleaned text followed by "\n" + "\n\n" + markdown for every table with headers, in table order; headerless tables leave no trace. |
| Markdown.PageMarkdown | SVI_Chatbot/Extractor/PDF/src/extractor.py:73-76 | The page keeps its markdown when the raw text is blank or the markdown is at least 0.3 times as long as the raw text, both stripped; the fallback replaces it exactly when the raw text is non-blank and the stripped markdown is shorter than 0.3 times the stripped raw text. |
| Markdown.PageMarkdownFallback | SVI_Chatbot/Extractor/PDF/src/extractor.py:73-76 | When the fallback is taken, the stored markdown is the cleaned raw text followed by each table's markdown, and the cleaned text keeps every non-blank raw line, stripped and in order. |
| Markdown.ExtractPage | SVI_Chatbot/Extractor/PDF/src/extractor.py:84-88 | The page result is numbered page_index + 1 and keeps the raw text and the tables. |
| PageLayout.LayOut | SVI_Chatbot/Extractor/PDF/src/structure_parser.py:39-45 | The page ranges tile the text from 0 to its length in page order; each range holds exactly its page's markdown + "\n\n" and carries that page's number. |
| PageLayout.OffsetToPage | SVI_Chatbot/Extractor/PDF/src/structure_parser.py:188-192 | An empty offset table maps every offset to page 1. |
| PageLayout.OffsetToPageIsPage | SVI_Chatbot/Extractor/PDF/src/structure_parser.py:188-192 | On a non-empty table every offset, inside a range or not, maps to the page of one of the ranges. |
| PageLayout.OffsetToPageSpec | SVI_Chatbot/Extractor/PDF/src/structure_parser.py:188-192 | The result is the page of the first range holding the offset; the last page when no range holds it; 1 when the table is empty. |
| PageLayout.OffsetToPageOnLayout | SVI_Chatbot/Extractor/PDF/src/structure_parser.py:188-192 | On a layout, an offset inside a page's range maps back to that page. |
| PageLayout.OffsetToPageInText | SVI_Chatbot/Extractor/PDF/src/structure_parser.py:188-192 | Every offset of the text maps to the number of one of the pages. |
| PageLayout.BlankPagesBlankText | SVI_Chatbot/Extractor/PDF/src/structure_parser.py:40-45 | When every page's markdown is blank, so is the concatenated text. |
| PageLayout.NonBlankPages | SVI_Chatbot/Extractor/PDF/src/structure_parser.py:166-169 | Every page kept is one of the input pages and has non-blank markdown. |
| PageLayout.NonBlankPagesKeeps | SVI_Chatbot/Extractor/PDF/src/structure_parser.py:166-169 | Conversely every input page with non-blank markdown is kept. |
| PageLayout.NonBlankPagesEmpty | SVI_Chatbot/Extractor/PDF/src/structure_parser.py:166-169 | No page is kept exactly when every page is blank. |
| PageLayout.NonBlankPagesSingle | SVI_Chatbot/Extractor/PDF/src/structure_parser.py:166-169 | A single page is kept exactly when its markdown is not blank. |
| PageLayout.NonBlankPagesAppend | SVI_Chatbot/Extractor/PDF/src/structure_parser.py:166-169 | The filter goes page by page: the kept pages of a concatenation are those of each part, in order, so the kept pages keep their original order. |
| FontSizes.SizeKeys | SVI_Chatbot/Extractor/PDF/src/structure_parser.py:57-61 | The size keys are distinct: each size is counted under one key. |
| FontSizes.SizeKeysOrder | SVI_Chatbot/Extractor/PDF/src/structure_parser.py:57-61 | The keys are in order of first appearance: of two keys, the earlier one is first counted at an earlier span. Together with FontSizes.SizeKeysSpec this fixes the key list of a dict filled in span order, which line 72 relies on to break ties. |
| FontSizes.SizeKeysSpec | SVI_Chatbot/Extractor/PDF/src/structure_parser.py:57-61 | A size is a key exactly when some span of that size has a stripped text of at least two characters. |
| FontSizes.BodySize | SVI_Chatbot/Extractor/PDF/src/structure_parser.py:69-72 | The body size is a key with maximal character count, and every key seen before it has a strictly smaller count. |
| FontSizes.SortDescending | SVI_Chatbot/Extractor/PDF/src/structure_parser.py:75-78 | Distinct sizes sorted with reverse=True: strictly descending and a permutation of the input. |
| FontSizes.SliceTo | SVI_Chatbot/Extractor/PDF/src/structure_parser.py:78 | Python's xs[:n]: a prefix of the list, of length min(n, len) for n >= 0 and len + n (at least 0) for negative n. |
| FontSizes.HeadingSizes | SVI_Chatbot/Extractor/PDF/src/structure_parser.py:75-78 | There are at most max_heading_levels heading sizes when that is non-negative, and at most as many as size keys; each is a size key larger than the body size. |
| FontSizes.HeadingSizesSpec | SVI_Chatbot/Extractor/PDF/src/structure_parser.py:75-78 | The heading sizes are strictly descending sizes above the body size; any larger size left out is smaller than all kept ones; there are min(max_heading_levels, number of larger sizes) of them. |
| FontSizes.LevelOf | SVI_Chatbot/Extractor/PDF/src/structure_parser.py:83 | A heading size's level lies in 1..len(heading_sizes) and indexes that size. |
| FontSizes.LevelsFollowSize | SVI_Chatbot/Extractor/PDF/src/structure_parser.py:83 | Level 1 is the largest heading size, and one size is larger than another exactly when its level number is smaller. |
| Headings.HeadingLines | SVI_Chatbot/Extractor/PDF/src/structure_parser.py:96-99 | Every heading line has a heading size and a stripped, non-blank, non-numeric title of at least two characters; there are no more of them than spans. |
| Headings.HeadingLinesSingle | SVI_Chatbot/Extractor/PDF/src/structure_parser.py:96-99 | A span gives a heading line, its text stripped with page and size kept, exactly when its stripped text is non-empty, its size is a heading size, it has at least two characters and is not all digits; otherwise it gives nothing. |
| Headings.HeadingLinesAppend | SVI_Chatbot/Extractor/PDF/src/structure_parser.py:94-99 | The heading lines of two span lists in a row are the first list's followed by the second's, so every qualifying span is kept, in span order. |
| Headings.Merge | SVI_Chatbot/Extractor/PDF/src/structure_parser.py:103-113 | The merged list is no longer than the input and empty only for empty input; no merged heading would continue the one before it. The full characterisation is Headings.MergeRuns. |
| Headings.MergeRuns | SVI_Chatbot/Extractor/PDF/src/structure_parser.py:103-113 | Merging is exactly a regrouping into runs: the heading lines split into consecutive runs; within a run every line has the page and size of the first and follows a title so far under 50 characters; each merged heading is its run's texts joined by single spaces with the first line's page and size; and no run's first line continues the heading before it. |
| Headings.MergeKeepsText | SVI_Chatbot/Extractor/PDF/src/structure_parser.py:111 | Merging only regroups words: the merged titles joined with spaces read exactly as the heading lines joined with spaces. |
| Headings.MergeWithoutContinuations | SVI_Chatbot/Extractor/PDF/src/structure_parser.py:105-113 | When no line has the same page and size as the one before it with a title under 50 characters, merging changes nothing. |
| Headings.MergeShrinks | SVI_Chatbot/Extractor/PDF/src/structure_parser.py:103-113 | Merging shortens the list exactly when some heading line continues the one before it. |
| Headings.MergeKeepsKinds | SVI_Chatbot/Extractor/PDF/src/structure_parser.py:111-113 | Every merged heading keeps a heading size and a non-blank title. |
| Headings.PageStartSpec | SVI_Chatbot/Extractor/PDF/src/structure_parser.py:120-126 | The search start of a page is the start of the first range with that page number, or 0 when there is none. |
| Headings.SearchTitle | SVI_Chatbot/Extractor/PDF/src/structure_parser.py:128-132 | The two `find` calls give -1 exactly when the title does not occur at or after the page start; otherwise a real occurrence there, at or after the cursor unless the title no longer occurs there. Which occurrence is taken is stated by Headings.SearchTitleFirst. |
| Headings.Locate | SVI_Chatbot/Extractor/PDF/src/structure_parser.py:115-140 | Each located heading is recorded at an actual occurrence of its title, at or after the start of its page, with a level in 1..len(heading_sizes). Which occurrence is chosen is stated by Headings.LocateInOrder. |
| Headings.LocateKeepsFindable | SVI_Chatbot/Extractor/PDF/src/structure_parser.py:115-140 | A merged heading is kept exactly when its title occurs at or after its page's start: the located headings are the findable ones, in order, with their titles, pages and levels. |
| Headings.LocateInOrder | SVI_Chatbot/Extractor/PDF/src/structure_parser.py:128-140 | Each located heading lies at or after the cursor left by the previous one (the first at or after the initial cursor), unless its title no longer occurs there. Which occurrence is taken is stated by Headings.LocateFindsFirst. |
| Headings.SearchTitleFirst | SVI_Chatbot/Extractor/PDF/src/structure_parser.py:128-132 | A successful search stops at the first occurrence at or after the later of the cursor and the page start, or, when none lies there, at the first occurrence at or after the page start. |
| Headings.LocateSearched | SVI_Chatbot/Extractor/PDF/src/structure_parser.py:128-140 | Each located heading sits where the two searches stop when started from the cursor left by the heading before it (the first from the initial cursor). |
| Headings.LocateFindsFirst | SVI_Chatbot/Extractor/PDF/src/structure_parser.py:128-140 | Each located heading sits at the first occurrence of its title the two searches meet: from the later of the previous cursor and its page start, or, when none lies there, from its page start. |
| Structure.PySlice | SVI_Chatbot/Extractor/PDF/src/structure_parser.py:150 | Python's s[a:b]: the slice when a <= b <= len, "" when the range is reversed or starts past the end. |
| Structure.SliceSections | SVI_Chatbot/Extractor/PDF/src/structure_parser.py:146-160 | One section per heading, in order, with its title, level and page; the content is the stripped text from its offset to the next heading's offset or to the end; the end page is the page of the last character. |
| Structure.SectionsTile | SVI_Chatbot/Extractor/PDF/src/structure_parser.py:148-150 | With headings in text order, the raw section texts concatenate to the text from the first heading on: nothing is lost or repeated. |
| Structure.SectionsOverlap | SVI_Chatbot/Extractor/PDF/src/structure_parser.py:39-150 | One page with markdown "xx zz yy" and the spans "xx" (14 pt), "yy" (12 pt), "zz" (10 pt) with heading sizes 14, 12, 10: the page is laid out, all three spans are heading lines, none merges, and the located headings are out of text order; the raw sections concatenate to "xx zz zz yy\n\n", repeating "zz". |
| Structure.LocateOutOfOrder | SVI_Chatbot/Extractor/PDF/src/structure_parser.py:115-140 | On "xx zz yy\n\n" the heading lines "xx", "yy", "zz" are located at 0, 6 and 3 with levels 1, 2, 3: "zz" no longer occurs after the cursor 8, so the search from the page start places it before "yy". |
| Structure.RepeatedText | SVI_Chatbot/Extractor/PDF/src/structure_parser.py:146-150 | Headings at offsets 0, 6, 3 of "xx zz yy\n\n" are out of text order and cut it into "xx zz ", "" and "zz yy\n\n". |
| Structure.SectionEndPage | SVI_Chatbot/Extractor/PDF/src/structure_parser.py:152 | A section ending inside the text ends on the page whose range holds its last character. |
| Structure.FirstMeaningful | SVI_Chatbot/Extractor/PDF/src/structure_parser.py:173-177 | The first line that, stripped, is longer than 2 characters and does not start with "![", or none exactly when no such line exists. |
| Structure.FallbackTitle | SVI_Chatbot/Extractor/PDF/src/structure_parser.py:171-177 | The title is the first 80 characters of the first meaningful line, stripped (all of it when shorter), or "Page N" when there is none; it is never blank. |
| Structure.FallbackPages | SVI_Chatbot/Extractor/PDF/src/structure_parser.py:164-186 | There is exactly one fallback section per non-blank page; every one has level 1, starts and ends on the same page, and has non-blank content. |
| Structure.FallbackPagesShape | SVI_Chatbot/Extractor/PDF/src/structure_parser.py:164-186 | For every index i below the number of fallback sections (the number of non-blank pages), the i-th section belongs to the i-th non-blank page: level 1, content the page's stripped markdown, starting and ending on that page, and titled FallbackTitle of the stripped markdown and page number, i.e. the first meaningful line cut to 80 characters or "Page N"; title and content are non-blank. |
| Structure.FallbackPagesEmpty | SVI_Chatbot/Extractor/PDF/src/structure_parser.py:166-170 | The fallback yields no section exactly when every page is blank. |
| Structure.LocatedHeadings | SVI_Chatbot/Extractor/PDF/src/structure_parser.py:83-140 | Every located heading has a level in 1..len(heading_sizes). |
| Structure.LocatedNeedsText | SVI_Chatbot/Extractor/PDF/src/structure_parser.py:128-140 | In a document whose pages are all blank no heading is ever located. |
| Structure.Parse | SVI_Chatbot/Extractor/PDF/src/structure_parser.py:65-162 | Every section has a level of at least 1 and at most max_heading_levels when that is positive; which result is returned is stated by Structure.ParseRoutes. |
| Structure.ParseRoutes | SVI_Chatbot/Extractor/PDF/src/structure_parser.py:65-162 | The parser returns the page fallback when no span gives a size key (65-66), when no size is larger than the body size (80-81), or when no heading is located (142-143); otherwise it returns the sections sliced at the located headings (146-162). |
| Structure.ParseEmpty | SVI_Chatbot/Extractor/PDF/src/structure_parser.py:128-143 | The parser yields no section exactly when every page is blank: a non-blank heading title is never found in a blank text. |
| Chunker.ApproxTokens | SVI_Chatbot/Extractor/PDF/src/chunker.py:181-183 | The estimate is at least 1 and is half the length rounded down for texts of two or more characters. |
| Chunker.MakeId | SVI_Chatbot/Extractor/PDF/src/chunker.py:176-178 | An id is the first 12 characters of the digest of "source_key_idx" (the whole digest when it is shorter). |
| Chunker.PieceChunks | SVI_Chatbot/Extractor/PDF/src/chunker.py:81-90 | One chunk per splitter piece, in order; chunk i holds piece i, the base metadata with sub_chunk_index = i, and the id of index i. |
| Chunker.TextChunks | SVI_Chatbot/Extractor/PDF/src/chunker.py:71-90 | A text within chunk_size is one chunk holding it with the base metadata and the id of the caller's short key and index; a longer one gives one chunk per splitter piece, piece i with the id of the long key and index i and sub_chunk_index = i. |
| Chunker.TextChunksContents | SVI_Chatbot/Extractor/PDF/src/chunker.py:71-90 | The chunk contents are [text] when the text fits and exactly the splitter's pieces otherwise. |
| Chunker.TextChunksCover | SVI_Chatbot/Extractor/PDF/src/chunker.py:71-90 | The chunk contents concatenate back to the text whenever it fits or the splitter's pieces concatenate back to it. That hypothesis excludes a splitter whose pieces overlap; Chunker.TextChunksContents covers every splitter. |
| Chunker.TablesChunks | SVI_Chatbot/Extractor/PDF/src/chunker.py:94-109 | Every table chunk of a page is tagged as a table, carries the page number and the source, and counts its tokens. |
| Chunker.TablesChunksContents | SVI_Chatbot/Extractor/PDF/src/chunker.py:94-98 | The table chunks of a page hold exactly the markdown of its tables with headers, in table order. |
| Chunker.TablesChunksIds | SVI_Chatbot/Extractor/PDF/src/chunker.py:94-104 | A chunk is a table chunk of the page exactly when it is the chunk of the j-th table with index t_idx = from + j, for a table with headers: the id is that of "table_p" + page number and t_idx, so a skipped table still uses up its index. |
| Chunker.TableChunks | SVI_Chatbot/Extractor/PDF/src/chunker.py:93-109 | Every chunk is a counted table chunk of the source; their contents are the markdown of every table with headers on any page, in page then table order; a chunk is in the result exactly when it is one of the table chunks of some page, numbered from 0 within that page and carrying that page's number (see Chunker.TablesChunksIds for the ids). |
| Chunker.SectionChunk | SVI_Chatbot/Extractor/PDF/src/chunker.py:58-90 | A blank section gives no chunk; a short one gives one chunk with the stripped content and no sub_chunk_index; a long one gives one chunk per splitter piece with sub_chunk_index = i; the short chunk's id is that of (sec_idx, 0) and piece i's that of (sec_idx, i); every chunk copies the section's title, level, pages and source. |
| Chunker.SectionChunksFacts | SVI_Chatbot/Extractor/PDF/src/chunker.py:58-90 | Section chunks are never tagged as tables and all count their tokens; each copies the metadata of one of the sections. |
| Chunker.SectionChunks | SVI_Chatbot/Extractor/PDF/src/chunker.py:58-90 | A chunk is among the section chunks exactly when it is among the chunks the k-th section gives with section index from + k, for some k. |
| Chunker.NumberedAppend | SVI_Chatbot/Extractor/PDF/src/chunker.py:58 | Chunking a run item by item with a running number distributes over concatenation, the second part numbered on from the length of the first. |
| Chunker.JoinedAppend | SVI_Chatbot/Extractor/PDF/src/chunker.py:120 | Chunking a run item by item distributes over concatenation. |
| Chunker.SectionChunksAppend | SVI_Chatbot/Extractor/PDF/src/chunker.py:58 | Sections chunk independently: the chunks of two runs of sections are those of the first followed by those of the second, numbered on. |
| Chunker.SectionChunksEmpty | SVI_Chatbot/Extractor/PDF/src/chunker.py:67-90 | Section mode yields no section chunk exactly when every section is blank, or long with no splitter piece. |
| Chunker.ChunkBySections | SVI_Chatbot/Extractor/PDF/src/chunker.py:49-111 | All table chunks come after all section chunks; the table chunks are exactly those of Chunker.TableChunks and their contents are the markdown of every table with headers in page then table order; every other chunk copies the metadata of a section; the chunks before the tables are exactly the section chunks, with the same contents in the same order. |
| Chunker.PageTextChunks | SVI_Chatbot/Extractor/PDF/src/chunker.py:125-149 | The text chunks of a page carry its page number and source, and hold its stripped markdown or the splitter's pieces. The short chunk has the id of ("page", N) and no sub_chunk_index; piece i has the id of ("pageN", i) and sub_chunk_index = i. |
| Chunker.PageChunks | SVI_Chatbot/Extractor/PDF/src/chunker.py:120-167 | A blank page gives no chunk, its tables included; otherwise the chunks are exactly the page's text chunks of its stripped markdown followed by its table chunks numbered from 0 with the page's number, whose contents are the markdown of its tables with headers. |
| Chunker.ChunkByPagesFacts | SVI_Chatbot/Extractor/PDF/src/chunker.py:113-169 | Every page-mode chunk carries the source and the number of a non-blank page, is not section metadata, and counts its tokens. |
| Chunker.ChunkByPages | SVI_Chatbot/Extractor/PDF/src/chunker.py:113-169 | A chunk is among the page-mode chunks exactly when it is among the chunks of one of the pages. |
| Chunker.ChunkByPagesAppend | SVI_Chatbot/Extractor/PDF/src/chunker.py:120 | Pages chunk independently: the chunks of two runs of pages are those of the first followed by those of the second. |
| Chunker.ChunkByPagesTables | SVI_Chatbot/Extractor/PDF/src/chunker.py:121-123 | In page mode the table chunks hold only the tables of non-blank pages. |
| Text.Find | SVI_Chatbot/Extractor/PDF/src/structure_parser.py:128 | `str.find`: -1 exactly when the pattern does not occur at or after the start; otherwise the first occurrence there. |
| Text.SplitJoin | SVI_Chatbot/Extractor/PDF/src/extractor.py:117 | Joining pieces that do not contain the separator and splitting again gives back the pieces. |
| Text.JoinSplit | SVI_Chatbot/Extractor/PDF/src/extractor.py:117 | Splitting on a separator and joining with it gives back the text. |
| Text.StripIdempotent | SVI_Chatbot/Extractor/PDF/src/extractor.py:120 | Stripping twice is stripping once. |

The two copies of `_table_to_markdown` (in `src/extractor.py` and `src/chunker.py`) are the
same text. They are modelled once, as `Markdown.TableToMarkdown`, and both stages use it.

## Left out

- PyMuPDF, pymupdf4llm and pdfplumber calls are not modelled. Their outputs are inputs: a page's markdown, raw text and tables, and the document's spans.
- The span walk of `parse` (steps 2 and 4) is not modelled. Both passes read the same document, so the model takes one span list for both.
- Images, page elements, bounding boxes, page rendering and the progress callback are left out. They are presentation data that no modelled operation reads.
- The LangChain splitter is a parameter. Its pieces are not constrained, so no size or overlap bound is claimed for split chunks.
- The md5 digest is a parameter of `Chunker.MakeId`.
- `app.py` (Streamlit UI), `extract.py` (command line and file output) and pydantic validation are not part of this model.
- The survey-scoring code elsewhere in the repository is not part of this model.
- Markdown.PageMarkdown: compares 10·|md| < 3·|raw| in exact integers, while the source multiplies by the float 0.3. Float rounding itself is not modelled. The two tests agree for every stripped raw length below 2^49. The double nearest 0.3 lies just below 3/10, so when 3·|raw|/10 is a whole number the product rounds back to exactly that number. When it is not, it lies at least 1/10 from every whole number, while below 2^49 the rounding error stays under 1/30.
- FontSizes.SizeKeys: sizes are integers in tenths of a point, already rounded to one decimal as line 60 does. The float rounding itself is not modelled.
- Headings.HeadingLines: "all digits" is ASCII digits only. Python's `isdigit` also accepts other Unicode digit characters.
- Structure.SectionsTile: promises the tiling only for headings in text order. Locate does not always return that order: Structure.SectionsOverlap follows one page and three spans through the layout, the heading test, the merge and the search, and the sections then repeat text. The source does not guard against it.
- Headings.Locate: the source also computes `page_end` but never uses it, so the model has no counterpart.
- Chunker.ChunkBySections: does not claim that chunk ids are distinct. Ids are digest prefixes, so their uniqueness depends on the hash.

=== FILE: chunker.dfy ===
/** Retrieval chunking (src/chunker.py): sections or pages become chunks of
    at most `chunkSize` characters, split further by a text splitter when
    longer, and every table with headers becomes a chunk of its own. The
    splitter and the md5 digest are parameters of the model. */
module Chunker {
  import opened Text
  import opened Models
  import opened Markdown
  import opened PageLayout

  /** `_approx_tokens`: half the character count, rounded down, and never
      less than 1. */
  function ApproxTokens(text: string): (r: int)
    ensures r >= 1
    ensures |text| >= 2 ==> 2 * r <= |text| < 2 * r + 2
    ensures |text| < 2 ==> r == 1
  {
    if |text| / 2 > 1 then |text| / 2 else 1
  }

  /** `_make_id`: the first 12 characters of the hex digest of
      "source_key_idx". */
  function MakeId(hash: string -> string, source: string, key: string, idx: int): (r: string)
    ensures var d := hash(source + "_" + key + "_" + IntToString(idx));
      |r| == (if |d| < 12 then |d| else 12) && r <= d
  {
    Take(hash(source + "_" + key + "_" + IntToString(idx)), 12)
  }

  // ----------------------------------------------------------------------
  // Metadata
  // ----------------------------------------------------------------------

  /** `base_meta` of a section, with an optional `sub_chunk_index`. */
  function SectionBase(s: Section, source: string): Metadata {
    SectionMeta(s.title, s.level, s.startPage, s.endPage, source, None)
  }

  /** `{**meta, "sub_chunk_index": i}`. */
  function WithIndex(m: Metadata, i: nat): Metadata {
    match m
    case SectionMeta(title, level, start, end, source, _) => SectionMeta(title, level, start, end, source, Some(i))
    case PageMeta(page, source, _) => PageMeta(page, source, Some(i))
    case TableMeta(_, _) => m
  }

  /** The metadata carries every field of the section's `base_meta`. */
  predicate CopiesSection(m: Metadata, s: Section, source: string) {
    && m.SectionMeta?
    && m.sectionTitle == s.title
    && m.sectionLevel == s.level
    && m.startPage == s.startPage
    && m.endPage == s.endPage
    && m.source == source
  }

  predicate IsTable(c: Chunk) {
    c.metadata.TableMeta?
  }

  /** A chunk's token count is the estimate for its content. */
  predicate Counted(c: Chunk) {
    c.tokenCount == ApproxTokens(c.content) && c.tokenCount >= 1
  }

  // ----------------------------------------------------------------------
  // Splitting one text
  // ----------------------------------------------------------------------

  /** The `enumerate(sub_texts)` loop: piece `i` becomes a chunk with index
      `i` in its id and its metadata. */
  function PieceChunks(hash: string -> string, source: string, key: string,
                       pieces: seq<string>, meta: Metadata): (r: seq<Chunk>)
    ensures |r| == |pieces|
    ensures forall i :: 0 <= i < |r| ==>
      && r[i].content == pieces[i]
      && r[i].metadata == WithIndex(meta, i)
      && r[i].id == MakeId(hash, source, key, i)
      && Counted(r[i])
  {
    seq(|pieces|, i requires 0 <= i < |pieces| =>
      Chunk(MakeId(hash, source, key, i), pieces[i], WithIndex(meta, i), ApproxTokens(pieces[i])))
  }

  /** A text of at most `chunkSize` characters is one chunk with the base
      metadata; a longer one is one chunk per splitter piece, numbered from
      0 in `sub_chunk_index`. */
  function TextChunks(split: string -> seq<string>, hash: string -> string, chunkSize: int,
                      text: string, source: string, shortKey: string, shortIdx: int,
                      longKey: string, meta: Metadata): (r: seq<Chunk>)
    ensures forall c :: c in r ==> Counted(c)
    ensures |text| <= chunkSize ==>
      && |r| == 1
      && r[0].id == MakeId(hash, source, shortKey, shortIdx)
      && r[0].content == text
      && r[0].metadata == meta
    ensures |text| > chunkSize ==> |r| == |split(text)|
    ensures |text| > chunkSize ==> forall i :: 0 <= i < |r| ==>
      && r[i].id == MakeId(hash, source, longKey, i)
      && r[i].content == split(text)[i]
      && r[i].metadata == WithIndex(meta, i)
  {
    if |text| <= chunkSize then
      [Chunk(MakeId(hash, source, shortKey, shortIdx), text, meta, ApproxTokens(text))]
    else
      PieceChunks(hash, source, longKey, split(text), meta)
  }

  function Contents(cs: seq<Chunk>): seq<string> {
    seq(|cs|, i requires 0 <= i < |cs| => cs[i].content)
  }

  /** No text is lost: the chunk contents concatenate to the text whenever
      it fits in one chunk or the splitter's pieces concatenate back to it. */
  lemma {:induction false} TextChunksCover(split: string -> seq<string>, hash: string -> string, chunkSize: int,
                                           text: string, source: string, shortKey: string, shortIdx: int,
                                           longKey: string, meta: Metadata)
    requires |text| <= chunkSize || Concat(split(text)) == text
    ensures Concat(Contents(TextChunks(split, hash, chunkSize, text, source, shortKey, shortIdx, longKey, meta))) == text
  {
    var r := TextChunks(split, hash, chunkSize, text, source, shortKey, shortIdx, longKey, meta);
    if |text| <= chunkSize {
      assert Contents(r) == [text];
      assert Contents(r)[1..] == [];
    } else {
      assert Contents(r) == split(text);
    }
  }

  /** The chunk contents are the text itself when it fits, and otherwise
      exactly the splitter's pieces, overlapping or not. */
  lemma {:induction false} TextChunksContents(split: string -> seq<string>, hash: string -> string, chunkSize: int,
                                              text: string, source: string, shortKey: string, shortIdx: int,
                                              longKey: string, meta: Metadata)
    ensures Contents(TextChunks(split, hash, chunkSize, text, source, shortKey, shortIdx, longKey, meta))
      == if |text| <= chunkSize then [text] else split(text)
  {
    var r := TextChunks(split, hash, chunkSize, text, source, shortKey, shortIdx, longKey, meta);
    if |text| <= chunkSize {
      assert Contents(r)[0] == text;
    }
  }

  // ----------------------------------------------------------------------
  // Table chunks
  // ----------------------------------------------------------------------

  /** The chunk of a table with `enumerate` index `idx` on page `pageNumber`. */
  function TableChunk(hash: string -> string, source: string, pageNumber: int, t: TableData, idx: int): Chunk {
    var md := TableToMarkdown(t);
    Chunk(MakeId(hash, source, "table_p" + IntToString(pageNumber), idx), md,
          TableMeta(pageNumber, source), ApproxTokens(md))
  }

  /** The table loop of one page: each table whose markdown is not blank
      becomes a table chunk; `from` is the `enumerate` index of the first. */
  function TablesChunks(hash: string -> string, source: string, pageNumber: int,
                        tables: seq<TableData>, from: nat): (r: seq<Chunk>)
    ensures |r| <= |tables|
    ensures forall c :: c in r ==>
      && IsTable(c)
      && c.metadata.page == pageNumber
      && c.metadata.source == source
      && Counted(c)
  {
    if |tables| == 0 then []
    else
      var md := TableToMarkdown(tables[0]);
      var rest := TablesChunks(hash, source, pageNumber, tables[1..], from + 1);
      if Blank(md) then rest
      else [TableChunk(hash, source, pageNumber, tables[0], from)] + rest
  }

  /** What table `t` with `enumerate` index `idx` contributes: its chunk when
      it has headers, else nothing. */
  function TableOne(hash: string -> string, source: string, pageNumber: int, t: TableData, idx: int): seq<Chunk> {
    if Blank(TableToMarkdown(t)) then [] else [TableChunk(hash, source, pageNumber, t, idx)]
  }

  /** A chunk is a table chunk of the page exactly when some table with
      headers yields it under that table's own `enumerate` index: tables
      without headers are skipped but still counted in the ids. */
  lemma {:induction false} TablesChunksIds(hash: string -> string, source: string, pageNumber: int,
                                           tables: seq<TableData>, from: nat)
    ensures forall c :: c in TablesChunks(hash, source, pageNumber, tables, from) <==>
      exists j :: 0 <= j < |tables| && c in TableOne(hash, source, pageNumber, tables[j], from + j)
  {
    var f := (t: TableData, i: nat) => TableOne(hash, source, pageNumber, t, i);
    TablesNumbered(hash, source, pageNumber, tables, from, f);
    NumberedIn(f, tables, from);
    assert forall k :: 0 <= k < |tables| ==>
      f(tables[k], from + k) == TableOne(hash, source, pageNumber, tables[k], from + k);
  }

  /** The table loop is the numbered run of `TableOne`. */
  lemma {:induction false} TablesNumbered(hash: string -> string, source: string, pageNumber: int,
                                          tables: seq<TableData>, from: nat, f: (TableData, nat) -> seq<Chunk>)
    requires forall t, i: nat :: f(t, i) == TableOne(hash, source, pageNumber, t, i)
    ensures TablesChunks(hash, source, pageNumber, tables, from) == Numbered(f, tables, from)
    decreases |tables|
  {
    if |tables| > 0 {
      TablesNumbered(hash, source, pageNumber, tables[1..], from + 1, f);
    }
  }

  /** The contents of the table chunks, in order. */
  function TableContents(cs: seq<Chunk>): seq<string> {
    if |cs| == 0 then []
    else (if IsTable(cs[0]) then [cs[0].content] else []) + TableContents(cs[1..])
  }

  /** The contents of the other chunks, in order. */
  function TextContents(cs: seq<Chunk>): seq<string> {
    if |cs| == 0 then []
    else (if IsTable(cs[0]) then [] else [cs[0].content]) + TextContents(cs[1..])
  }

  lemma {:induction false} ContentsAppend(a: seq<Chunk>, b: seq<Chunk>)
    ensures TableContents(a + b) == TableContents(a) + TableContents(b)
    ensures TextContents(a + b) == TextContents(a) + TextContents(b)
  {
    if |a| > 0 {
      assert (a + b)[1..] == a[1..] + b;
      ContentsAppend(a[1..], b);
    } else {
      assert a + b == b;
    }
  }

  lemma {:induction false} NoTables(cs: seq<Chunk>)
    requires forall c :: c in cs ==> !IsTable(c)
    ensures TableContents(cs) == []
    ensures TextContents(cs) == Contents(cs)
  {
    if |cs| > 0 {
      assert forall c :: c in cs[1..] ==> c in cs;
      NoTables(cs[1..]);
      assert Contents(cs) == [cs[0].content] + Contents(cs[1..]);
    }
  }

  lemma {:induction false} OnlyTables(cs: seq<Chunk>)
    requires forall c :: c in cs ==> IsTable(c)
    ensures TextContents(cs) == []
  {
    if |cs| > 0 {
      assert forall c :: c in cs[1..] ==> c in cs;
      OnlyTables(cs[1..]);
    }
  }

  /** The table chunks of a page hold exactly the markdown of its tables that
      have headers, in table order: the chunker's blank-markdown test and
      the extractor's missing-headers test select the same tables. */
  lemma {:induction false} TablesChunksContents(hash: string -> string, source: string, pageNumber: int,
                                                tables: seq<TableData>, from: nat)
    ensures TableContents(TablesChunks(hash, source, pageNumber, tables, from)) == TableMarkdowns(tables)
  {
    if |tables| > 0 {
      TableMarkdownBlank(tables[0]);
      TablesChunksContents(hash, source, pageNumber, tables[1..], from + 1);
    }
  }

  /** The markdown of every table with headers, page by page. */
  function AllTableMarkdowns(pages: seq<PageResult>): seq<string> {
    if |pages| == 0 then [] else TableMarkdowns(pages[0].tables) + AllTableMarkdowns(pages[1..])
  }

  /** The table chunks of one page, numbered from 0 with its page number. */
  function PageTables(hash: string -> string, source: string, p: PageResult): seq<Chunk> {
    TablesChunks(hash, source, p.pageNumber, p.tables, 0)
  }

  /** The table chunks of `chunk_by_sections`: every page's tables, blank
      pages included. A chunk is one of them exactly when it is a table chunk
      of some page, numbered on that page and carrying its page number. */
  function TableChunks(hash: string -> string, source: string, pages: seq<PageResult>): (r: seq<Chunk>)
    ensures forall c :: c in r ==> IsTable(c) && c.metadata.source == source && Counted(c)
    ensures TableContents(r) == AllTableMarkdowns(pages)
    ensures forall c :: c in r <==> exists k :: 0 <= k < |pages| && c in PageTables(hash, source, pages[k])
  {
    if |pages| == 0 then []
    else
      var here := PageTables(hash, source, pages[0]);
      var rest := TableChunks(hash, source, pages[1..]);
      TablesChunksContents(hash, source, pages[0].pageNumber, pages[0].tables, 0);
      ContentsAppend(here, rest);
      PageTablesCons(hash, source, pages, rest);
      here + rest
  }

  /** One step of the membership proof of `TableChunks`: the first page's
      table chunks, then those of the other pages. */
  lemma {:induction false} PageTablesCons(hash: string -> string, source: string, pages: seq<PageResult>,
                                          rest: seq<Chunk>)
    requires |pages| > 0
    requires forall c :: c in rest <==> exists k :: 0 <= k < |pages| - 1 && c in PageTables(hash, source, pages[1..][k])
    ensures forall c :: c in PageTables(hash, source, pages[0]) + rest <==>
      exists k :: 0 <= k < |pages| && c in PageTables(hash, source, pages[k])
  {
    forall c | c in PageTables(hash, source, pages[0]) + rest
      ensures exists k :: 0 <= k < |pages| && c in PageTables(hash, source, pages[k])
    {
      if c !in PageTables(hash, source, pages[0]) {
        var k :| 0 <= k < |pages| - 1 && c in PageTables(hash, source, pages[1..][k]);
        assert pages[1..][k] == pages[k + 1];
      }
    }
    forall c, k | 0 <= k < |pages| && c in PageTables(hash, source, pages[k])
      ensures c in PageTables(hash, source, pages[0]) + rest
    {
      if k > 0 {
        assert pages[1..][k - 1] == pages[k];
      }
    }
  }

  /** Every table chunk comes after every other chunk. */
  predicate TablesLast(cs: seq<Chunk>) {
    forall i, j :: 0 <= i < j < |cs| && IsTable(cs[i]) ==> IsTable(cs[j])
  }

  // ----------------------------------------------------------------------
  // `chunk_by_sections`
  // ----------------------------------------------------------------------

  /** The chunks of section number `secIdx`: none for a blank section, one
      with the stripped content and the base metadata when it fits, else one
      per splitter piece with `sub_chunk_index` set. */
  function SectionChunk(split: string -> seq<string>, hash: string -> string, chunkSize: int,
                        s: Section, secIdx: nat, source: string): (r: seq<Chunk>)
    ensures Blank(s.content) ==> r == []
    ensures forall c :: c in r ==> CopiesSection(c.metadata, s, source) && Counted(c)
    ensures !Blank(s.content) && |Strip(s.content)| <= chunkSize ==>
      r == [Chunk(MakeId(hash, source, IntToString(secIdx), 0), Strip(s.content),
                  SectionBase(s, source), ApproxTokens(Strip(s.content)))]
    ensures !Blank(s.content) && |Strip(s.content)| > chunkSize ==>
      && |r| == |split(Strip(s.content))|
      && forall i :: 0 <= i < |r| ==>
           && r[i].id == MakeId(hash, source, IntToString(secIdx), i)
           && r[i].content == split(Strip(s.content))[i]
           && r[i].metadata == WithIndex(SectionBase(s, source), i)
           && r[i].metadata.subChunkIndex == Some(i)
  {
    var text := Strip(s.content);
    if text == "" then []
    else
      var meta := SectionBase(s, source);
      var key := IntToString(secIdx);
      TextChunks(split, hash, chunkSize, text, source, key, 0, key, meta)
  }

  /** The items of a run chunked one by one, the item at position `k` with
      running number `from + k`, and the chunks concatenated in order. */
  function Numbered<T>(f: (T, nat) -> seq<Chunk>, xs: seq<T>, from: nat): seq<Chunk>
  {
    if |xs| == 0 then [] else f(xs[0], from) + Numbered(f, xs[1..], from + 1)
  }

  /** Numbering runs on across a concatenation. */
  lemma {:induction false} NumberedAppend<T>(f: (T, nat) -> seq<Chunk>, a: seq<T>, b: seq<T>, from: nat)
    ensures Numbered(f, a + b, from) == Numbered(f, a, from) + Numbered(f, b, from + |a|)
  {
    if |a| == 0 {
      assert a + b == b;
    } else {
      TailOfAppend(a, b);
      NumberedAppend(f, a[1..], b, from + 1);
      AppendAssoc(f(a[0], from), Numbered(f, a[1..], from + 1), Numbered(f, b, from + |a|));
    }
  }

  /** A chunk is numbered from `from` exactly when the `k`-th item yields it
      under number `from + k`. */
  lemma {:induction false} NumberedIn<T>(f: (T, nat) -> seq<Chunk>, xs: seq<T>, from: nat)
    ensures forall c :: c in Numbered(f, xs, from) <==> exists k :: 0 <= k < |xs| && c in f(xs[k], from + k)
  {
    if |xs| > 0 {
      var tail := xs[1..];
      NumberedIn(f, tail, from + 1);
      assert Numbered(f, xs, from) == f(xs[0], from) + Numbered(f, tail, from + 1);
      forall c | c in Numbered(f, xs, from)
        ensures exists k :: 0 <= k < |xs| && c in f(xs[k], from + k)
      {
        if c in f(xs[0], from) {
          assert 0 < |xs| && c in f(xs[0], from + 0);
        } else {
          assert c in Numbered(f, tail, from + 1);
          var k :| 0 <= k < |tail| && c in f(tail[k], from + 1 + k);
          assert tail[k] == xs[k + 1];
          assert 0 <= k + 1 < |xs| && c in f(xs[k + 1], from + (k + 1));
        }
      }
      forall c, k | 0 <= k < |xs| && c in f(xs[k], from + k)
        ensures c in Numbered(f, xs, from)
      {
        if k > 0 {
          assert tail[k - 1] == xs[k];
          assert 0 <= k - 1 < |tail| && c in f(tail[k - 1], from + 1 + (k - 1));
          assert c in Numbered(f, tail, from + 1);
        }
      }
    }
  }

  /** The items of a run chunked one by one and the chunks concatenated in order. */
  function Joined<T>(f: T -> seq<Chunk>, xs: seq<T>): seq<Chunk>
  {
    if |xs| == 0 then [] else f(xs[0]) + Joined(f, xs[1..])
  }

  /** A chunk is in the run's chunks exactly when one of the items yields it. */
  lemma {:induction false} JoinedIn<T>(f: T -> seq<Chunk>, xs: seq<T>)
    ensures forall c :: c in Joined(f, xs) <==> exists k :: 0 <= k < |xs| && c in f(xs[k])
  {
    if |xs| > 0 {
      var tail := xs[1..];
      JoinedIn(f, tail);
      assert Joined(f, xs) == f(xs[0]) + Joined(f, tail);
      forall c | c in Joined(f, xs)
        ensures exists k :: 0 <= k < |xs| && c in f(xs[k])
      {
        if c in f(xs[0]) {
          assert 0 < |xs| && c in f(xs[0]);
        } else {
          assert c in Joined(f, tail);
          var k :| 0 <= k < |tail| && c in f(tail[k]);
          assert tail[k] == xs[k + 1];
          assert 0 <= k + 1 < |xs| && c in f(xs[k + 1]);
        }
      }
      forall c, k | 0 <= k < |xs| && c in f(xs[k])
        ensures c in Joined(f, xs)
      {
        if k > 0 {
          assert tail[k - 1] == xs[k];
          assert 0 <= k - 1 < |tail| && c in f(tail[k - 1]);
          assert c in Joined(f, tail);
        }
      }
    }
  }

  lemma {:induction false} JoinedAppend<T>(f: T -> seq<Chunk>, a: seq<T>, b: seq<T>)
    ensures Joined(f, a + b) == Joined(f, a) + Joined(f, b)
  {
    if |a| == 0 {
      assert a + b == b;
    } else {
      TailOfAppend(a, b);
      JoinedAppend(f, a[1..], b);
      AppendAssoc(f(a[0]), Joined(f, a[1..]), Joined(f, b));
    }
  }

  /** The section loop, numbering sections from `from`. */
  function SectionChunks(split: string -> seq<string>, hash: string -> string, chunkSize: int,
                         sections: seq<Section>, from: nat, source: string): (r: seq<Chunk>)
    ensures forall c :: c in r <==>
      exists k :: 0 <= k < |sections| && c in SectionChunk(split, hash, chunkSize, sections[k], from + k, source)
  {
    var f := (s: Section, i: nat) => SectionChunk(split, hash, chunkSize, s, i, source);
    SectionChunksIn(split, hash, chunkSize, f, sections, from, source);
    Numbered(f, sections, from)
  }

  /** The membership fact behind `SectionChunks`, read through the numbering
      of any `f` that chunks a section as `SectionChunk` does. */
  lemma {:induction false} SectionChunksIn(split: string -> seq<string>, hash: string -> string, chunkSize: int,
                                           f: (Section, nat) -> seq<Chunk>, sections: seq<Section>, from: nat,
                                           source: string)
    requires forall s: Section, i: nat :: f(s, i) == SectionChunk(split, hash, chunkSize, s, i, source)
    ensures forall c :: c in Numbered(f, sections, from) <==>
      exists k :: 0 <= k < |sections| && c in SectionChunk(split, hash, chunkSize, sections[k], from + k, source)
  {
    NumberedIn(f, sections, from);
  }

  /** Every section chunk is a counted text chunk copied from one of the sections. */
  lemma {:induction false} SectionChunksFacts(split: string -> seq<string>, hash: string -> string, chunkSize: int,
                                              sections: seq<Section>, from: nat, source: string)
    ensures forall c :: c in SectionChunks(split, hash, chunkSize, sections, from, source) ==>
      !IsTable(c) && Counted(c)
    ensures forall c :: c in SectionChunks(split, hash, chunkSize, sections, from, source) ==>
      exists s :: s in sections && CopiesSection(c.metadata, s, source)
  {
    if |sections| > 0 {
      SectionChunksFacts(split, hash, chunkSize, sections[1..], from + 1, source);
      assert forall s :: s in sections[1..] ==> s in sections;
    }
  }

  /** Sections chunk independently: the chunks of two runs of sections are
      the chunks of the first followed by those of the second, numbered on. */
  lemma {:induction false} SectionChunksAppend(split: string -> seq<string>, hash: string -> string, chunkSize: int,
                                               a: seq<Section>, b: seq<Section>, from: nat, source: string)
    ensures SectionChunks(split, hash, chunkSize, a + b, from, source)
      == SectionChunks(split, hash, chunkSize, a, from, source)
         + SectionChunks(split, hash, chunkSize, b, from + |a|, source)
  {
    NumberedAppend((s: Section, i: nat) => SectionChunk(split, hash, chunkSize, s, i, source), a, b, from);
  }

  /** One step of `SectionChunks`. */
  lemma {:induction false} SectionChunksCons(split: string -> seq<string>, hash: string -> string, chunkSize: int,
                                             sections: seq<Section>, from: nat, source: string)
    requires |sections| > 0
    ensures SectionChunks(split, hash, chunkSize, sections, from, source)
      == SectionChunk(split, hash, chunkSize, sections[0], from, source)
         + SectionChunks(split, hash, chunkSize, sections[1..], from + 1, source)
  {
  }

  /** A section yields no chunk exactly when it is blank or it is long and
      the splitter returns no piece. */
  predicate Silent(split: string -> seq<string>, chunkSize: int, s: Section) {
    Blank(s.content) || (|Strip(s.content)| > chunkSize && split(Strip(s.content)) == [])
  }

  lemma {:induction false} SectionChunksEmpty(split: string -> seq<string>, hash: string -> string, chunkSize: int,
                                              sections: seq<Section>, from: nat, source: string)
    ensures SectionChunks(split, hash, chunkSize, sections, from, source) == []
      <==> forall i :: 0 <= i < |sections| ==> Silent(split, chunkSize, sections[i])
  {
    if |sections| > 0 {
      SectionChunksEmpty(split, hash, chunkSize, sections[1..], from + 1, source);
      SectionChunkEmpty(split, hash, chunkSize, sections[0], from, source);
      SectionChunksCons(split, hash, chunkSize, sections, from, source);
      SilentCons(split, chunkSize, sections);
    }
  }

  lemma {:induction false} SilentCons(split: string -> seq<string>, chunkSize: int, sections: seq<Section>)
    requires |sections| > 0
    ensures (forall i :: 0 <= i < |sections| ==> Silent(split, chunkSize, sections[i]))
      <==> Silent(split, chunkSize, sections[0])
           && forall i :: 0 <= i < |sections[1..]| ==> Silent(split, chunkSize, sections[1..][i])
  {
    assert forall i :: 1 <= i < |sections| ==> sections[i] == sections[1..][i - 1];
  }

  lemma {:induction false} SectionChunkEmpty(split: string -> seq<string>, hash: string -> string, chunkSize: int,
                                             s: Section, secIdx: nat, source: string)
    ensures SectionChunk(split, hash, chunkSize, s, secIdx, source) == [] <==> Silent(split, chunkSize, s)
  {
  }

  /** `chunk_by_sections`: the section chunks in section order, then one
      chunk per table with headers on any page, in page and table order. */
  function ChunkBySections(split: string -> seq<string>, hash: string -> string, chunkSize: int,
                           sections: seq<Section>, pages: seq<PageResult>, source: string): (r: seq<Chunk>)
    ensures TablesLast(r)
    ensures TableContents(r) == AllTableMarkdowns(pages)
    ensures forall c :: c in r ==> Counted(c)
    ensures forall c :: c in r && !IsTable(c) ==>
      exists s :: s in sections && CopiesSection(c.metadata, s, source)
    ensures TextContents(r) == Contents(SectionChunks(split, hash, chunkSize, sections, 0, source))
    ensures forall c :: c in r && !IsTable(c) <==> c in SectionChunks(split, hash, chunkSize, sections, 0, source)
    ensures forall c :: c in r && IsTable(c) <==> c in TableChunks(hash, source, pages)
  {
    var secs := SectionChunks(split, hash, chunkSize, sections, 0, source);
    var tabs := TableChunks(hash, source, pages);
    SectionChunksFacts(split, hash, chunkSize, sections, 0, source);
    NoTables(secs);
    OnlyTables(tabs);
    ContentsAppend(secs, tabs);
    Concatenated(secs, tabs);
    secs + tabs
  }

  // ----------------------------------------------------------------------
  // `chunk_by_pages`
  // ----------------------------------------------------------------------

  /** The text chunks of a non-blank page: one chunk with the stripped
      markdown when it fits, else one per splitter piece. */
  function PageTextChunks(split: string -> seq<string>, hash: string -> string, chunkSize: int,
                          text: string, pageNumber: int, source: string): (r: seq<Chunk>)
    ensures forall c :: c in r ==>
      && c.metadata.PageMeta?
      && c.metadata.page == pageNumber
      && c.metadata.source == source
      && Counted(c)
    ensures TableContents(r) == []
    ensures |text| <= chunkSize ==> TextContents(r) == [text]
    ensures |text| > chunkSize ==> TextContents(r) == split(text)
    ensures |text| <= chunkSize ==>
      && |r| == 1
      && r[0].id == MakeId(hash, source, "page", pageNumber)
      && r[0].metadata.subChunkIndex == None
    ensures |text| > chunkSize ==> forall i :: 0 <= i < |r| ==>
      && r[i].id == MakeId(hash, source, "page" + IntToString(pageNumber), i)
      && r[i].metadata.subChunkIndex == Some(i)
  {
    var meta := PageMeta(pageNumber, source, None);
    var r := TextChunks(split, hash, chunkSize, text, source, "page", pageNumber,
                        "page" + IntToString(pageNumber), meta);
    assert forall i :: 0 <= i < |r| ==> r[i].metadata.PageMeta?;
    NoTables(r);
    assert |text| <= chunkSize ==> Contents(r) == [text];
    assert |text| > chunkSize ==> Contents(r) == split(text);
    r
  }

  /** The chunks of one page: nothing for a blank page, its tables included;
      otherwise its text chunks, then its table chunks. */
  function PageChunks(split: string -> seq<string>, hash: string -> string, chunkSize: int,
                      p: PageResult, source: string): (r: seq<Chunk>)
    ensures Blank(p.markdown) ==> r == []
    ensures TablesLast(r)
    ensures forall c :: c in r ==>
      && !c.metadata.SectionMeta?
      && c.metadata.page == p.pageNumber
      && c.metadata.source == source
      && Counted(c)
    ensures TableContents(r) == if Blank(p.markdown) then [] else TableMarkdowns(p.tables)
    ensures !Blank(p.markdown) && |Strip(p.markdown)| <= chunkSize ==> TextContents(r) == [Strip(p.markdown)]
    ensures !Blank(p.markdown) && |Strip(p.markdown)| > chunkSize ==> TextContents(r) == split(Strip(p.markdown))
    ensures !Blank(p.markdown) ==>
      r == PageTextChunks(split, hash, chunkSize, Strip(p.markdown), p.pageNumber, source)
           + TablesChunks(hash, source, p.pageNumber, p.tables, 0)
  {
    var text := Strip(p.markdown);
    if text == "" then []
    else
      var texts := PageTextChunks(split, hash, chunkSize, text, p.pageNumber, source);
      var tabs := TablesChunks(hash, source, p.pageNumber, p.tables, 0);
      OnlyTables(tabs);
      TablesChunksContents(hash, source, p.pageNumber, p.tables, 0);
      ContentsAppend(texts, tabs);
      Concatenated(texts, tabs);
      texts + tabs
  }

  /** Text chunks followed by table chunks keep the tables last. */
  lemma {:induction false} Concatenated(texts: seq<Chunk>, tabs: seq<Chunk>)
    requires forall c :: c in texts ==> !IsTable(c)
    requires forall c :: c in tabs ==> IsTable(c)
    ensures TablesLast(texts + tabs)
    ensures forall c :: c in texts + tabs ==> c in texts || c in tabs
  {
    var r := texts + tabs;
    forall i, j | 0 <= i < j < |r| && IsTable(r[i]) ensures IsTable(r[j]) {
      assert r[j] == tabs[j - |texts|];
    }
  }

  /** `chunk_by_pages`: the chunks of every page, in page order. */
  function ChunkByPages(split: string -> seq<string>, hash: string -> string, chunkSize: int,
                        pages: seq<PageResult>, source: string): (r: seq<Chunk>)
    ensures forall c :: c in r <==>
      exists k :: 0 <= k < |pages| && c in PageChunks(split, hash, chunkSize, pages[k], source)
  {
    var f := (p: PageResult) => PageChunks(split, hash, chunkSize, p, source);
    JoinedIn(f, pages);
    assert forall k :: 0 <= k < |pages| ==> f(pages[k]) == PageChunks(split, hash, chunkSize, pages[k], source);
    Joined(f, pages)
  }

  /** Every page-mode chunk is a counted chunk of the source that carries the
      number of a non-blank page. */
  lemma {:induction false} ChunkByPagesFacts(split: string -> seq<string>, hash: string -> string, chunkSize: int,
                                             pages: seq<PageResult>, source: string)
    ensures forall c :: c in ChunkByPages(split, hash, chunkSize, pages, source) ==>
      !c.metadata.SectionMeta? && c.metadata.source == source && Counted(c)
    ensures forall c :: c in ChunkByPages(split, hash, chunkSize, pages, source) ==>
      exists p :: p in NonBlankPages(pages) && c.metadata.page == p.pageNumber
  {
    if |pages| > 0 {
      var here := PageChunks(split, hash, chunkSize, pages[0], source);
      var rest := ChunkByPages(split, hash, chunkSize, pages[1..], source);
      var nb := NonBlankPages(pages);
      ChunkByPagesStep(split, hash, chunkSize, pages, source);
      ChunkByPagesFacts(split, hash, chunkSize, pages[1..], source);
      assert nb == (if Blank(pages[0].markdown) then [] else [pages[0]]) + NonBlankPages(pages[1..]);
      assert forall c :: c in here ==> pages[0] in nb && c.metadata.page == pages[0].pageNumber;
      assert forall c :: c in rest ==> exists p :: p in nb && c.metadata.page == p.pageNumber;
    }
  }

  /** Pages chunk independently of one another. */
  lemma {:induction false} ChunkByPagesAppend(split: string -> seq<string>, hash: string -> string, chunkSize: int,
                                              a: seq<PageResult>, b: seq<PageResult>, source: string)
    ensures ChunkByPages(split, hash, chunkSize, a + b, source)
      == ChunkByPages(split, hash, chunkSize, a, source) + ChunkByPages(split, hash, chunkSize, b, source)
  {
    JoinedAppend((p: PageResult) => PageChunks(split, hash, chunkSize, p, source), a, b);
  }

  /** Dropping the head of a non-empty front. */
  lemma {:induction false} TailOfAppend<T>(a: seq<T>, b: seq<T>)
    requires |a| > 0
    ensures (a + b)[0] == a[0] && (a + b)[1..] == a[1..] + b
  {
  }

  lemma {:induction false} AppendAssoc(x: seq<Chunk>, y: seq<Chunk>, z: seq<Chunk>)
    ensures x + (y + z) == (x + y) + z
  {
  }

  /** One step of `ChunkByPages`. */
  lemma {:induction false} ChunkByPagesStep(split: string -> seq<string>, hash: string -> string, chunkSize: int,
                                            pages: seq<PageResult>, source: string)
    requires |pages| > 0
    ensures ChunkByPages(split, hash, chunkSize, pages, source)
      == PageChunks(split, hash, chunkSize, pages[0], source) + ChunkByPages(split, hash, chunkSize, pages[1..], source)
  {
  }

  /** In page mode the table chunks are the tables of the non-blank pages
      only: a blank page takes its tables with it. */
  lemma {:induction false} ChunkByPagesTables(split: string -> seq<string>, hash: string -> string, chunkSize: int,
                                              pages: seq<PageResult>, source: string)
    ensures TableContents(ChunkByPages(split, hash, chunkSize, pages, source))
      == AllTableMarkdowns(NonBlankPages(pages))
  {
    if |pages| > 0 {
      var here := PageChunks(split, hash, chunkSize, pages[0], source);
      var rest := ChunkByPages(split, hash, chunkSize, pages[1..], source);
      ChunkByPagesTables(split, hash, chunkSize, pages[1..], source);
      ContentsAppend(here, rest);
      if !Blank(pages[0].markdown) {
        assert NonBlankPages(pages) == [pages[0]] + NonBlankPages(pages[1..]);
        assert ([pages[0]] + NonBlankPages(pages[1..]))[1..] == NonBlankPages(pages[1..]);
      }
    }
  }
}

=== FILE: fontsizes.dfy ===
/** Font-size statistics of the structure parser (src/structure_parser.py,
    steps 2 and 3): which size is body text, which larger sizes are heading
    levels, and the level of each heading size. Sizes are integers in tenths
    of a point, the parser having rounded them to one decimal. */
module FontSizes {
  import opened Text

  /** A text span as read from the PDF: its text, 1-based page and size. */
  datatype Span = Span(text: string, page: int, size: int)

  /** A span enters the size statistics when its stripped text has at least
      two characters. */
  predicate Counted(s: Span) {
    |Strip(s.text)| >= 2
  }

  predicate Distinct(xs: seq<int>) {
    forall i, j :: 0 <= i < j < |xs| ==> xs[i] != xs[j]
  }

  predicate StrictlyDescending(xs: seq<int>) {
    forall i, j :: 0 <= i < j < |xs| ==> xs[i] > xs[j]
  }

  /** Some counted span has size `x`. */
  predicate CountedSize(spans: seq<Span>, x: int) {
    exists i :: 0 <= i < |spans| && Counted(spans[i]) && spans[i].size == x
  }

  /** The keys of `size_texts`: the sizes of counted spans, each once, in
      order of first appearance (Python dicts keep insertion order). */
  function SizeKeys(spans: seq<Span>): (r: seq<int>)
    ensures Distinct(r)
  {
    if |spans| == 0 then []
    else
      var prev := SizeKeys(spans[..|spans| - 1]);
      var s := spans[|spans| - 1];
      if Counted(s) && s.size !in prev then
        assert forall i :: 0 <= i < |prev| ==> (prev + [s.size])[i] == prev[i];
        prev + [s.size]
      else prev
  }

  /** The size keys are exactly the sizes of the counted spans. */
  lemma {:induction false} SizeKeysSpec(spans: seq<Span>, x: int)
    ensures x in SizeKeys(spans) <==> CountedSize(spans, x)
  {
    if |spans| > 0 {
      var init := spans[..|spans| - 1];
      var s := spans[|spans| - 1];
      SizeKeysSpec(init, x);
      CountedSizeSnoc(spans, x);
      var prev := SizeKeys(init);
      if Counted(s) && s.size !in prev {
        assert SizeKeys(spans) == prev + [s.size];
      } else {
        assert SizeKeys(spans) == prev;
      }
    }
  }

  /** `p` is the position of the first counted span of size `x`. */
  predicate FirstCountedAt(spans: seq<Span>, x: int, p: int) {
    && 0 <= p < |spans|
    && Counted(spans[p]) && spans[p].size == x
    && forall q :: 0 <= q < p ==> !(Counted(spans[q]) && spans[q].size == x)
  }

  /** The size keys come in order of first appearance: of two keys, the one
      listed first is the size of an earlier counted span. */
  lemma {:induction false} SizeKeysOrder(spans: seq<Span>, i: nat, j: nat, p: int, q: int)
    requires i < j < |SizeKeys(spans)|
    requires FirstCountedAt(spans, SizeKeys(spans)[i], p)
    requires FirstCountedAt(spans, SizeKeys(spans)[j], q)
    ensures p < q
  {
    var n := |spans| - 1;
    var init := spans[..n];
    var prev := SizeKeys(init);
    var r := SizeKeys(spans);
    var s := spans[n];
    var isNew := Counted(s) && s.size !in prev;
    assert r == if isNew then prev + [s.size] else prev;
    assert r[i] == prev[i];
    SizeKeysSpec(init, r[i]);
    FirstInInit(spans, r[i], p);
    if j < |prev| {
      assert r[j] == prev[j];
      SizeKeysSpec(init, r[j]);
      FirstInInit(spans, r[j], q);
      SizeKeysOrder(init, i, j, p, q);
    } else {
      SizeKeysSpec(init, s.size);
      if q < n {
        assert init[q] == spans[q];
        assert CountedSize(init, s.size);
      }
    }
  }

  /** A size that already occurs among the earlier spans first occurs there. */
  lemma {:induction false} FirstInInit(spans: seq<Span>, x: int, p: int)
    requires |spans| > 0 && FirstCountedAt(spans, x, p)
    requires CountedSize(spans[..|spans| - 1], x)
    ensures p < |spans| - 1 && FirstCountedAt(spans[..|spans| - 1], x, p)
  {
    var init := spans[..|spans| - 1];
    var k :| 0 <= k < |init| && Counted(init[k]) && init[k].size == x;
    assert spans[k] == init[k];
    assert forall q :: 0 <= q <= p ==> init[q] == spans[q];
  }

  lemma {:induction false} CountedSizeSnoc(spans: seq<Span>, x: int)
    requires |spans| > 0
    ensures CountedSize(spans, x) <==>
      CountedSize(spans[..|spans| - 1], x) || (Counted(spans[|spans| - 1]) && spans[|spans| - 1].size == x)
  {
    var n := |spans| - 1;
    if CountedSize(spans[..n], x) {
      CountedSizeGrows(spans, x);
    }
    if Counted(spans[n]) && spans[n].size == x {
      assert 0 <= n < |spans| && Counted(spans[n]) && spans[n].size == x;
    }
    if CountedSize(spans, x) && !(Counted(spans[n]) && spans[n].size == x) {
      CountedSizeBefore(spans, x);
    }
  }

  lemma {:induction false} CountedSizeGrows(spans: seq<Span>, x: int)
    requires |spans| > 0 && CountedSize(spans[..|spans| - 1], x)
    ensures CountedSize(spans, x)
  {
    var init := spans[..|spans| - 1];
    var i :| 0 <= i < |init| && Counted(init[i]) && init[i].size == x;
    assert spans[i] == init[i];
  }

  lemma {:induction false} CountedSizeBefore(spans: seq<Span>, x: int)
    requires |spans| > 0 && CountedSize(spans, x)
    requires !(Counted(spans[|spans| - 1]) && spans[|spans| - 1].size == x)
    ensures CountedSize(spans[..|spans| - 1], x)
  {
    var init := spans[..|spans| - 1];
    var i :| 0 <= i < |spans| && Counted(spans[i]) && spans[i].size == x;
    var last := spans[|spans| - 1];
    assert !(Counted(last) && last.size == x);
    assert i != |spans| - 1;
    assert spans[i] == init[i];
  }

  /** The number of characters set in `size`: the summed lengths of the
      stripped texts of the counted spans of that size. */
  function CharCount(spans: seq<Span>, size: int): nat {
    if |spans| == 0 then 0
    else
      var s := spans[|spans| - 1];
      CharCount(spans[..|spans| - 1], size) + (if Counted(s) && s.size == size then |Strip(s.text)| else 0)
  }

  /** `max(d, key=...)` over a list of weights: the index of the first
      maximal weight. */
  function FirstMax(ws: seq<int>): (k: nat)
    requires |ws| > 0
    ensures k < |ws|
    ensures forall i :: 0 <= i < |ws| ==> ws[i] <= ws[k]
    ensures forall i :: 0 <= i < k ==> ws[i] < ws[k]
  {
    if |ws| == 1 then 0
    else
      var k := FirstMax(ws[..|ws| - 1]);
      assert forall i :: 0 <= i < |ws| - 1 ==> ws[..|ws| - 1][i] == ws[i];
      if ws[|ws| - 1] > ws[k] then |ws| - 1 else k
  }

  /** The body size: a size with the largest character count; among equal
      counts, the one that appeared first. */
  function BodySize(spans: seq<Span>): (b: int)
    requires |SizeKeys(spans)| > 0
    ensures b in SizeKeys(spans)
    ensures forall x :: x in SizeKeys(spans) ==> CharCount(spans, x) <= CharCount(spans, b)
    ensures forall i, j ::
              0 <= i < j < |SizeKeys(spans)| && SizeKeys(spans)[j] == b ==>
                CharCount(spans, SizeKeys(spans)[i]) < CharCount(spans, b)
  {
    var keys := SizeKeys(spans);
    var ws := seq(|keys|, i requires 0 <= i < |keys| => CharCount(spans, keys[i]));
    var k := FirstMax(ws);
    assert forall i :: 0 <= i < |keys| ==> ws[i] == CharCount(spans, keys[i]);
    keys[k]
  }

  /** The sizes strictly larger than `body`, in key order. */
  function Larger(keys: seq<int>, body: int): (r: seq<int>)
    ensures forall x :: x in r <==> x in keys && x > body
    ensures Distinct(keys) ==> Distinct(r)
    ensures |r| <= |keys|
  {
    if |keys| == 0 then []
    else
      var rest := Larger(keys[1..], body);
      assert forall x :: x in keys[1..] ==> x in keys;
      assert Distinct(keys) ==> Distinct(keys[1..]) && keys[0] !in keys[1..];
      if keys[0] > body then [keys[0]] + rest else rest
  }

  /** Inserts `x` into a strictly descending list. */
  function Insert(x: int, xs: seq<int>): (r: seq<int>)
    requires StrictlyDescending(xs)
    requires x !in xs
    ensures StrictlyDescending(r)
    ensures multiset(r) == multiset(xs) + multiset{x}
    ensures |r| == |xs| + 1
  {
    if |xs| == 0 || x > xs[0] then [x] + xs
    else
      var rest := Insert(x, xs[1..]);
      InsertBelowHead(x, xs, rest);
      [xs[0]] + rest
  }

  lemma {:induction false} InsertBelowHead(x: int, xs: seq<int>, rest: seq<int>)
    requires StrictlyDescending(xs) && |xs| > 0 && x < xs[0]
    requires StrictlyDescending(rest)
    requires multiset(rest) == multiset(xs[1..]) + multiset{x}
    ensures StrictlyDescending([xs[0]] + rest)
    ensures multiset([xs[0]] + rest) == multiset(xs) + multiset{x}
  {
    forall i | 0 <= i < |rest| ensures rest[i] < xs[0] {
      assert rest[i] in multiset(rest);
      if rest[i] != x {
        assert rest[i] in multiset(xs[1..]);
        assert rest[i] in xs[1..];
      }
    }
    assert xs == [xs[0]] + xs[1..];
  }

  /** `sorted(xs, reverse=True)` for distinct sizes. */
  function SortDescending(xs: seq<int>): (r: seq<int>)
    requires Distinct(xs)
    ensures StrictlyDescending(r)
    ensures multiset(r) == multiset(xs)
    ensures |r| == |xs|
  {
    if |xs| == 0 then []
    else
      var rest := SortDescending(xs[1..]);
      assert xs == [xs[0]] + xs[1..];
      assert xs[0] !in multiset(xs[1..]);
      Insert(xs[0], rest)
  }

  /** Python's `xs[:n]`: a negative `n` drops that many from the end. */
  function SliceTo(xs: seq<int>, n: int): (r: seq<int>)
    ensures r <= xs
    ensures n >= 0 ==> |r| == if n < |xs| then n else |xs|
    ensures n < 0 ==> |r| == if |xs| + n > 0 then |xs| + n else 0
  {
    if n >= 0 then (if n < |xs| then xs[..n] else xs)
    else if |xs| + n > 0 then xs[..|xs| + n] else []
  }

  /** The heading sizes: the sizes larger than the body size, largest first,
      cut to `maxLevels` entries. */
  function HeadingSizes(keys: seq<int>, body: int, maxLevels: int): (r: seq<int>)
    requires Distinct(keys)
    ensures maxLevels >= 0 ==> |r| <= maxLevels
    ensures |r| <= |keys|
    ensures forall i :: 0 <= i < |r| ==> r[i] in keys && r[i] > body
  {
    var sorted := SortDescending(Larger(keys, body));
    var r := SliceTo(sorted, maxLevels);
    SortedMembers(Larger(keys, body));
    assert forall i :: 0 <= i < |r| ==> r[i] == sorted[i] && sorted[i] in sorted;
    assert forall i :: 0 <= i < |r| ==> r[i] in Larger(keys, body);
    r
  }

  /** Sorting keeps exactly the members of the list. */
  lemma {:induction false} SortedMembers(xs: seq<int>)
    requires Distinct(xs)
    ensures forall x :: x in SortDescending(xs) <==> x in xs
  {
    var r := SortDescending(xs);
    assert forall x :: x in r <==> x in multiset(r);
    assert forall x :: x in xs <==> x in multiset(xs);
  }

  /** The heading sizes are exactly the largest `maxLevels` of the sizes
      above the body size, strictly descending. */
  lemma {:induction false} HeadingSizesSpec(keys: seq<int>, body: int, maxLevels: int)
    requires Distinct(keys)
    ensures StrictlyDescending(HeadingSizes(keys, body, maxLevels))
    ensures forall x :: x in HeadingSizes(keys, body, maxLevels) ==> x in keys && x > body
    ensures forall x, i :: (x in keys && x > body && x !in HeadingSizes(keys, body, maxLevels)
      && 0 <= i < |HeadingSizes(keys, body, maxLevels)|) ==> x < HeadingSizes(keys, body, maxLevels)[i]
    ensures maxLevels >= 0 ==> (|HeadingSizes(keys, body, maxLevels)|
      == if maxLevels < |Larger(keys, body)| then maxLevels else |Larger(keys, body)|)
  {
    var sorted := SortDescending(Larger(keys, body));
    var r := HeadingSizes(keys, body, maxLevels);
    assert r == sorted[..|r|];
    forall x | x in r ensures x in keys && x > body {
      assert x in multiset(sorted);
    }
    forall x, i | x in keys && x > body && x !in r && 0 <= i < |r|
      ensures x < r[i]
    {
      assert x in multiset(Larger(keys, body));
      assert x in sorted;
      PrefixDominates(sorted, |r|, x, i);
    }
  }

  /** In a strictly descending list, an element outside the first `n` is
      smaller than each of them. */
  lemma {:induction false} PrefixDominates(sorted: seq<int>, n: nat, x: int, i: nat)
    requires StrictlyDescending(sorted)
    requires n <= |sorted| && x in sorted && x !in sorted[..n] && i < n
    ensures x < sorted[i]
  {
    var j :| 0 <= j < |sorted| && sorted[j] == x;
    assert forall k :: 0 <= k < n ==> sorted[..n][k] == sorted[k];
  }

  /** `size_to_level`: the position of `s` among the heading sizes, from 1. */
  function LevelOf(sizes: seq<int>, s: int): (level: int)
    requires s in sizes
    ensures 1 <= level <= |sizes|
    ensures sizes[level - 1] == s
  {
    if sizes[0] == s then 1 else 1 + LevelOf(sizes[1..], s)
  }

  /** Level 1 is the largest heading size, and a larger size always gets a
      smaller level number. */
  lemma {:induction false} LevelsFollowSize(sizes: seq<int>, a: int, b: int)
    requires StrictlyDescending(sizes)
    requires a in sizes && b in sizes
    ensures LevelOf(sizes, sizes[0]) == 1
    ensures a > b <==> LevelOf(sizes, a) < LevelOf(sizes, b)
  {
    var la := LevelOf(sizes, a);
    var lb := LevelOf(sizes, b);
    if la < lb {
      assert sizes[la - 1] > sizes[lb - 1];
    }
    if lb < la {
      assert sizes[lb - 1] > sizes[la - 1];
    }
  }
}

=== FILE: headings.dfy ===
/** Heading detection of the structure parser (src/structure_parser.py,
    steps 4 and 5): the spans set in a heading size, wrapped heading lines
    merged, and each heading located in the concatenated text. */
module Headings {
  import opened Text
  import opened FontSizes
  import opened PageLayout

  // ----------------------------------------------------------------------
  // Candidates
  // ----------------------------------------------------------------------

  /** A span is a heading line when its stripped text is non-empty, has at
      least two characters, is not all digits, and its size is a heading
      size. */
  predicate IsHeadingLine(s: Span, sizes: seq<int>) {
    var t := Strip(s.text);
    t != "" && s.size in sizes && |t| >= 2 && !IsDigits(t)
  }

  /** The heading lines in document order, their texts stripped. */
  function HeadingLines(spans: seq<Span>, sizes: seq<int>): (r: seq<Span>)
    ensures |r| <= |spans|
    ensures forall i :: 0 <= i < |r| ==>
      && r[i].size in sizes
      && |r[i].text| >= 2
      && !Blank(r[i].text)
      && !IsDigits(r[i].text)
      && Strip(r[i].text) == r[i].text
  {
    if |spans| == 0 then []
    else
      var rest := HeadingLines(spans[1..], sizes);
      var s := spans[0];
      StripIdempotent(s.text);
      if IsHeadingLine(s, sizes) then [Span(Strip(s.text), s.page, s.size)] + rest else rest
  }

  /** One span yields its stripped heading line exactly when it passes the
      heading test, and nothing otherwise. */
  lemma {:induction false} HeadingLinesSingle(s: Span, sizes: seq<int>)
    ensures IsHeadingLine(s, sizes) ==> HeadingLines([s], sizes) == [Span(Strip(s.text), s.page, s.size)]
    ensures !IsHeadingLine(s, sizes) ==> HeadingLines([s], sizes) == []
  {
    assert [s][1..] == [];
  }

  /** The heading lines of two span lists in a row are those of the first
      followed by those of the second: every qualifying span is kept, in span
      order. */
  lemma {:induction false} HeadingLinesAppend(a: seq<Span>, b: seq<Span>, sizes: seq<int>)
    ensures HeadingLines(a + b, sizes) == HeadingLines(a, sizes) + HeadingLines(b, sizes)
    decreases |a|
  {
    if |a| > 0 {
      assert (a + b)[0] == a[0];
      assert (a + b)[1..] == a[1..] + b;
      HeadingLinesAppend(a[1..], b, sizes);
    } else {
      assert a + b == b;
    }
  }

  // ----------------------------------------------------------------------
  // Merging wrapped heading lines
  // ----------------------------------------------------------------------

  /** A heading line continues the previous heading when both are on the
      same page in the same size and the previous title is under 50
      characters. */
  predicate Continues(prev: Span, next: Span) {
    prev.page == next.page && prev.size == next.size && |prev.text| < 50
  }

  /** The merge loop: a continuing line is appended to the previous title
      after one space; any other line starts a new heading. */
  function Merge(hs: seq<Span>): (r: seq<Span>)
    ensures |r| <= |hs|
    ensures |r| == 0 <==> |hs| == 0
    ensures forall i :: 0 <= i < |r| - 1 ==> !Continues(r[i], r[i + 1])
  {
    if |hs| == 0 then []
    else
      var m := Merge(hs[..|hs| - 1]);
      var h := hs[|hs| - 1];
      if |m| > 0 && Continues(m[|m| - 1], h) then
        m[..|m| - 1] + [Span(m[|m| - 1].text + " " + h.text, h.page, h.size)]
      else
        m + [h]
  }

  function Texts(hs: seq<Span>): seq<string> {
    seq(|hs|, i requires 0 <= i < |hs| => hs[i].text)
  }

  lemma {:induction false} TextsSnoc(hs: seq<Span>, h: Span)
    ensures Texts(hs + [h]) == Texts(hs) + [h.text]
  {
  }

  /** Merging only regroups words: joined with spaces, the merged titles
      read exactly as the heading lines do. */
  lemma {:induction false} MergeKeepsText(hs: seq<Span>)
    ensures Join(" ", Texts(Merge(hs))) == Join(" ", Texts(hs))
  {
    if |hs| > 0 {
      var init := hs[..|hs| - 1];
      var m := Merge(init);
      var h := hs[|hs| - 1];
      assert hs == init + [h];
      TextsSnoc(init, h);
      MergeKeepsText(init);
      if |m| > 0 {
        assert |init| > 0;
        JoinSnoc(" ", Texts(init), h.text);
        var front := m[..|m| - 1];
        var last := m[|m| - 1];
        assert m == front + [last];
        TextsSnoc(front, last);
        if Continues(last, h) {
          MergeContinuing(front, last, h, Join(" ", Texts(hs)), Join(" ", Texts(m)));
          assert Merge(hs) == front + [Span(last.text + " " + h.text, h.page, h.size)];
          TextsSnoc(front, Span(last.text + " " + h.text, h.page, h.size));
        } else {
          assert Merge(hs) == m + [h];
          TextsSnoc(m, h);
          JoinSnoc(" ", Texts(m), h.text);
        }
      } else {
        assert |init| == 0;
        assert Merge(hs) == [h];
        assert Texts(hs) == [h.text];
        assert Texts(Merge(hs)) == [h.text];
      }
    }
  }

  /** The continuing case of `MergeKeepsText`: appending to the last title
      after a space reads like appending one more word. */
  lemma {:induction false} MergeContinuing(front: seq<Span>, last: Span, h: Span, whole: string, before: string)
    requires before == Join(" ", Texts(front) + [last.text])
    requires whole == before + " " + h.text
    ensures Join(" ", Texts(front) + [last.text + " " + h.text]) == whole
  {
    if |front| > 0 {
      JoinSnoc(" ", Texts(front), last.text);
      JoinSnoc(" ", Texts(front), last.text + " " + h.text);
    } else {
      assert Texts(front) + [last.text] == [last.text];
      assert Texts(front) + [last.text + " " + h.text] == [last.text + " " + h.text];
    }
  }

  /** The runs of heading lines laid end to end. */
  function Flatten(gs: seq<seq<Span>>): seq<Span> {
    if |gs| == 0 then [] else Flatten(gs[..|gs| - 1]) + gs[|gs| - 1]
  }

  lemma {:induction false} FlattenSnoc(gs: seq<seq<Span>>, g: seq<Span>)
    ensures Flatten(gs + [g]) == Flatten(gs) + g
  {
    assert (gs + [g])[..|gs|] == gs;
  }

  /** A run of heading lines that merges into one title: it is non-empty,
      every line has the page and size of the first, and each later line
      follows a title so far shorter than 50 characters. */
  predicate RunOK(g: seq<Span>) {
    && |g| > 0
    && forall j :: 1 <= j < |g| ==>
         && g[j].page == g[0].page
         && g[j].size == g[0].size
         && |Join(" ", Texts(g[..j]))| < 50
  }

  /** The heading a run merges into: its texts joined by single spaces, with
      the page and size of its lines. */
  function Collapse(g: seq<Span>): Span
    requires |g| > 0
  {
    Span(Join(" ", Texts(g)), g[0].page, g[0].size)
  }

  /** `m` is made of the runs `gs`, one heading per run, and no run's first
      line continues the heading before it. */
  predicate Grouped(m: seq<Span>, gs: seq<seq<Span>>) {
    && |m| == |gs|
    && (forall k :: 0 <= k < |gs| ==> RunOK(gs[k]) && m[k] == Collapse(gs[k]))
    && (forall k :: 0 <= k < |gs| - 1 ==> !Continues(m[k], gs[k + 1][0]))
  }

  /** The runs of heading lines the merge loop joins, in order. */
  function Runs(hs: seq<Span>): seq<seq<Span>> {
    if |hs| == 0 then []
    else
      var gs := Runs(hs[..|hs| - 1]);
      var m := Merge(hs[..|hs| - 1]);
      var h := hs[|hs| - 1];
      if |m| > 0 && |gs| == |m| && Continues(m[|m| - 1], h) then
        gs[..|gs| - 1] + [gs[|gs| - 1] + [h]]
      else
        gs + [[h]]
  }

  /** The merge is exactly a regrouping into runs: the heading lines split
      into consecutive runs, each run of lines on one page with one size,
      where every later line follows a title so far shorter than 50
      characters; each merged heading is its run's texts joined by spaces;
      and no run's first line continues the heading before it. */
  lemma {:induction false} MergeRuns(hs: seq<Span>)
    ensures Flatten(Runs(hs)) == hs
    ensures Grouped(Merge(hs), Runs(hs))
  {
    if |hs| > 0 {
      var init := hs[..|hs| - 1];
      var h := hs[|hs| - 1];
      MergeRuns(init);
      SnocSplit([], hs);
      MergeRunsStep(init, h);
    }
  }

  /** One step of `MergeRuns`: the merge loop handles one more line. */
  lemma {:induction false} MergeRunsStep(init: seq<Span>, h: Span)
    requires Flatten(Runs(init)) == init
    requires Grouped(Merge(init), Runs(init))
    ensures Flatten(Runs(init + [h])) == init + [h]
    ensures Grouped(Merge(init + [h]), Runs(init + [h]))
  {
    var m := Merge(init);
    if |m| > 0 && Continues(m[|m| - 1], h) {
      RunsJoinStep(init, h);
    } else {
      RunsStartStep(init, h);
    }
  }

  /** `MergeRunsStep` for a line that continues the last heading. */
  lemma {:induction false} RunsJoinStep(init: seq<Span>, h: Span)
    requires Flatten(Runs(init)) == init
    requires Grouped(Merge(init), Runs(init))
    requires |Merge(init)| > 0 && Continues(Merge(init)[|Merge(init)| - 1], h)
    ensures Flatten(Runs(init + [h])) == init + [h]
    ensures Grouped(Merge(init + [h]), Runs(init + [h]))
  {
    MergeSnoc(init, h);
    RunsSnoc(init, h);
    RunsJoin(Merge(init), Runs(init), h);
    FlattenExtend(Runs(init), h);
  }

  /** Extending the last run extends the flattened lines by one. */
  lemma {:induction false} FlattenExtend(gs: seq<seq<Span>>, h: Span)
    requires |gs| > 0
    ensures Flatten(gs[..|gs| - 1] + [gs[|gs| - 1] + [h]]) == Flatten(gs) + [h]
  {
    var g := gs[|gs| - 1];
    SnocSplit([], gs);
    FlattenSnoc(gs[..|gs| - 1], g);
    FlattenSnoc(gs[..|gs| - 1], g + [h]);
  }

  /** `MergeRunsStep` for a line that starts a heading of its own. */
  lemma {:induction false} RunsStartStep(init: seq<Span>, h: Span)
    requires Flatten(Runs(init)) == init
    requires Grouped(Merge(init), Runs(init))
    requires !(|Merge(init)| > 0 && Continues(Merge(init)[|Merge(init)| - 1], h))
    ensures Flatten(Runs(init + [h])) == init + [h]
    ensures Grouped(Merge(init + [h]), Runs(init + [h]))
  {
    MergeSnoc(init, h);
    RunsSnoc(init, h);
    RunsStart(Merge(init), Runs(init), h);
    FlattenSnoc(Runs(init), [h]);
  }

  /** The merge loop, one line further. */
  lemma {:induction false} MergeSnoc(init: seq<Span>, h: Span)
    ensures var m := Merge(init);
      Merge(init + [h]) == if |m| > 0 && Continues(m[|m| - 1], h)
        then m[..|m| - 1] + [Span(m[|m| - 1].text + " " + h.text, h.page, h.size)]
        else m + [h]
  {
    var hs := init + [h];
    assert hs[..|hs| - 1] == init;
  }

  /** The runs, one line further. */
  lemma {:induction false} RunsSnoc(init: seq<Span>, h: Span)
    requires |Runs(init)| == |Merge(init)|
    ensures var m := Merge(init); var gs := Runs(init);
      Runs(init + [h]) == if |m| > 0 && Continues(m[|m| - 1], h)
        then gs[..|gs| - 1] + [gs[|gs| - 1] + [h]]
        else gs + [[h]]
  {
    var hs := init + [h];
    assert hs[..|hs| - 1] == init;
  }

  /** A continuing line extends the last run. */
  lemma {:induction false} RunsJoin(m: seq<Span>, gs: seq<seq<Span>>, h: Span)
    requires Grouped(m, gs) && |m| > 0 && Continues(m[|m| - 1], h)
    ensures Grouped(m[..|m| - 1] + [Span(m[|m| - 1].text + " " + h.text, h.page, h.size)],
                    gs[..|gs| - 1] + [gs[|gs| - 1] + [h]])
  {
    var g := gs[|gs| - 1];
    RunExtend(g, h);
    var m' := m[..|m| - 1] + [Span(m[|m| - 1].text + " " + h.text, h.page, h.size)];
    var gs' := gs[..|gs| - 1] + [g + [h]];
    assert m'[|m'| - 1] == Collapse(g + [h]);
    forall k | 0 <= k < |gs'| - 1
      ensures !Continues(m'[k], gs'[k + 1][0])
    {
      assert m'[k] == m[k];
      if k + 1 < |gs| - 1 {
        assert gs'[k + 1] == gs[k + 1];
      } else {
        assert gs'[k + 1][0] == g[0] == gs[k + 1][0];
      }
    }
  }

  /** One more line that continues the title of a run extends the run. */
  lemma {:induction false} RunExtend(g: seq<Span>, h: Span)
    requires RunOK(g)
    requires h.page == g[0].page && h.size == g[0].size && |Join(" ", Texts(g))| < 50
    ensures RunOK(g + [h])
    ensures Collapse(g + [h]) == Span(Join(" ", Texts(g)) + " " + h.text, h.page, h.size)
  {
    var g' := g + [h];
    forall j | 1 <= j < |g'|
      ensures g'[j].page == g'[0].page && g'[j].size == g'[0].size && |Join(" ", Texts(g'[..j]))| < 50
    {
      assert g'[..j] == if j < |g| then g[..j] else g;
    }
    TextsSnoc(g, h);
    JoinSnoc(" ", Texts(g), h.text);
  }

  /** Any other line starts a run of its own. */
  lemma {:induction false} RunsStart(m: seq<Span>, gs: seq<seq<Span>>, h: Span)
    requires Grouped(m, gs)
    requires |m| > 0 ==> !Continues(m[|m| - 1], h)
    ensures Grouped(m + [h], gs + [[h]])
  {
    assert Texts([h]) == [h.text];
    assert Collapse([h]) == h;
  }

  /** When no line continues its predecessor, merging changes nothing. */
  lemma {:induction false} MergeWithoutContinuations(hs: seq<Span>)
    requires forall i :: 0 <= i < |hs| - 1 ==> !Continues(hs[i], hs[i + 1])
    ensures Merge(hs) == hs
  {
    if |hs| > 0 {
      var init := hs[..|hs| - 1];
      assert forall i :: 0 <= i < |init| ==> init[i] == hs[i];
      MergeWithoutContinuations(init);
      assert hs == init + [hs[|hs| - 1]];
    }
  }

  /** Some heading line continues the one before it. */
  predicate SomeContinuation(hs: seq<Span>) {
    exists i :: 0 <= i < |hs| - 1 && Continues(hs[i], hs[i + 1])
  }

  /** Merging shortens the list exactly when some heading line continues
      the one before it. */
  lemma {:induction false} MergeShrinks(hs: seq<Span>)
    ensures |Merge(hs)| < |hs| <==> SomeContinuation(hs)
  {
    if |hs| > 1 {
      var init := hs[..|hs| - 1];
      var m := Merge(init);
      MergeShrinks(init);
      MergeLength(hs);
      ContinuationSnoc(hs);
      if !SomeContinuation(init) {
        assert forall i :: 0 <= i < |init| - 1 ==> !Continues(init[i], init[i + 1]);
        MergeWithoutContinuations(init);
        assert m[|m| - 1] == hs[|hs| - 2];
      }
    }
  }

  /** A continuation in `hs` is one among its first lines or one at the end. */
  lemma {:induction false} ContinuationSnoc(hs: seq<Span>)
    requires |hs| > 1
    ensures SomeContinuation(hs) <==>
      SomeContinuation(hs[..|hs| - 1]) || Continues(hs[|hs| - 2], hs[|hs| - 1])
  {
    var init := hs[..|hs| - 1];
    assert forall i :: 0 <= i < |init| ==> init[i] == hs[i];
    if SomeContinuation(hs) && !Continues(hs[|hs| - 2], hs[|hs| - 1]) {
      var i :| 0 <= i < |hs| - 1 && Continues(hs[i], hs[i + 1]);
      assert Continues(init[i], init[i + 1]);
    }
    if SomeContinuation(init) {
      var i :| 0 <= i < |init| - 1 && Continues(init[i], init[i + 1]);
      assert Continues(hs[i], hs[i + 1]);
    }
  }

  /** One step of the merge loop grows the list by one heading, unless the
      last line continues the last heading. */
  lemma {:induction false} MergeLength(hs: seq<Span>)
    requires |hs| > 0
    ensures var m := Merge(hs[..|hs| - 1]);
      |Merge(hs)| == if |m| > 0 && Continues(m[|m| - 1], hs[|hs| - 1]) then |m| else |m| + 1
  {
  }

  /** Every merged heading has the page and size of some heading line, and a
      non-blank title when the heading lines have non-blank texts. */
  lemma {:induction false} MergeKeepsKinds(hs: seq<Span>, sizes: seq<int>)
    requires forall j :: 0 <= j < |hs| ==> hs[j].size in sizes && !Blank(hs[j].text)
    ensures forall i :: 0 <= i < |Merge(hs)| ==> Merge(hs)[i].size in sizes && !Blank(Merge(hs)[i].text)
  {
    if |hs| > 0 {
      var init := hs[..|hs| - 1];
      MergeKeepsKinds(init, sizes);
      var m := Merge(init);
      var h := hs[|hs| - 1];
      if |m| > 0 && Continues(m[|m| - 1], h) {
        var t := m[|m| - 1].text + " " + h.text;
        assert !Blank(m[|m| - 1].text);
        var k :| 0 <= k < |m[|m| - 1].text| && !IsSpace(m[|m| - 1].text[k]);
        assert t[k] == m[|m| - 1].text[k];
      }
    }
  }

  // ----------------------------------------------------------------------
  // Locating headings in the text
  // ----------------------------------------------------------------------

  /** A located heading: title, level, page and offset in the full text. */
  datatype Heading = Heading(title: string, level: int, page: int, offset: nat)

  /** Where the search for a heading of `page` begins: the start of the
      first range numbered `page`, or 0 when there is none. */
  function PageStart(offsets: seq<PageRange>, page: int): nat {
    if |offsets| == 0 then 0
    else if offsets[0].page == page then offsets[0].start
    else PageStart(offsets[1..], page)
  }

  /** The search starts at the first range numbered `page`, or at 0 when no
      range has that number. */
  lemma {:induction false} PageStartSpec(offsets: seq<PageRange>, page: int, i: nat)
    ensures i < |offsets| && offsets[i].page == page && (forall j :: 0 <= j < i ==> offsets[j].page != page)
      ==> PageStart(offsets, page) == offsets[i].start
    ensures (forall j :: 0 <= j < |offsets| ==> offsets[j].page != page) ==> PageStart(offsets, page) == 0
  {
    if |offsets| > 0 {
      assert forall j :: 0 <= j < |offsets| - 1 ==> offsets[1..][j] == offsets[j + 1];
      if i > 0 {
        PageStartSpec(offsets[1..], page, i - 1);
      } else {
        PageStartSpec(offsets[1..], page, 0);
      }
    }
  }

  /** The title of `m` occurs in `text` at or after the start of its page. */
  ghost predicate Findable(text: string, offsets: seq<PageRange>, m: Span) {
    exists j :: PageStart(offsets, m.page) <= j && OccursAt(text, m.text, j)
  }

  /** The merged headings whose titles can be found, in order. */
  ghost function FindableOnes(hs: seq<Span>, l: Layout): (r: seq<Span>)
    ensures |r| <= |hs|
    ensures forall x :: x in r ==> x in hs
  {
    if |hs| == 0 then []
    else
      var rest := FindableOnes(hs[1..], l);
      if Findable(l.fullText, l.offsets, hs[0]) then [hs[0]] + rest else rest
  }

  lemma {:induction false} FindableStep(hs: seq<Span>, l: Layout)
    requires |hs| > 0
    ensures FindableOnes(hs, l) == if Findable(l.fullText, l.offsets, hs[0])
      then [hs[0]] + FindableOnes(hs[1..], l) else FindableOnes(hs[1..], l)
  {
  }

  /** `offset` is where the two searches of step 5 stop: the first
      occurrence of `title` at or after the later of the cursor and the page
      start, or, when there is none there, the first occurrence at or after
      the page start. */
  ghost predicate FirstFound(text: string, title: string, pageStart: int, cursor: int, offset: int) {
    var from := if cursor > pageStart then cursor else pageStart;
    || (from <= offset && forall j :: from <= j < offset ==> !OccursAt(text, title, j))
    || (&& offset < from
        && (forall j :: from <= j ==> !OccursAt(text, title, j))
        && (forall j :: pageStart <= j < offset ==> !OccursAt(text, title, j)))
  }

  /** A heading lies at or after the cursor, unless its title no longer
      occurs there and it was found by the search from its page start. */
  ghost predicate Behind(text: string, cursor: int, h: Heading) {
    cursor <= h.offset || forall j :: cursor <= j ==> !OccursAt(text, h.title, j)
  }

  /** Every heading's size is one of the heading sizes. */
  predicate SizesKnown(hs: seq<Span>, sizes: seq<int>) {
    |hs| == 0 || (hs[0].size in sizes && SizesKnown(hs[1..], sizes))
  }

  lemma {:induction false} SizesKnownAll(hs: seq<Span>, sizes: seq<int>)
    requires forall i :: 0 <= i < |hs| ==> hs[i].size in sizes
    ensures SizesKnown(hs, sizes)
  {
    if |hs| > 0 {
      assert forall i :: 0 <= i < |hs| - 1 ==> hs[1..][i] == hs[i + 1];
      SizesKnownAll(hs[1..], sizes);
    }
  }

  /** The two `find` calls of step 5: from the later of the cursor and the
      page start, then from the page start. The result is -1 exactly when
      the title does not occur at or after the page start. */
  function SearchTitle(text: string, title: string, pageStart: nat, searchStart: nat): (idx: int)
    ensures idx == -1 <==> forall j :: pageStart <= j ==> !OccursAt(text, title, j)
    ensures idx != -1 ==> pageStart <= idx && OccursAt(text, title, idx)
    ensures idx != -1 ==> searchStart <= idx || forall j :: searchStart <= j ==> !OccursAt(text, title, j)
  {
    var first := Find(text, title, if searchStart > pageStart then searchStart else pageStart);
    if first == -1 then Find(text, title, pageStart) else first
  }

  /** The search stops at the first occurrence it meets: the first at or
      after the later of the cursor and the page start, or, when none lies
      there, the first at or after the page start. */
  lemma {:induction false} SearchTitleFirst(text: string, title: string, pageStart: nat, searchStart: nat)
    ensures var idx := SearchTitle(text, title, pageStart, searchStart);
      idx != -1 ==> FirstFound(text, title, pageStart, searchStart, idx)
  {
    var from := if searchStart > pageStart then searchStart else pageStart;
    var first := Find(text, title, from);
    if first == -1 {
      assert forall j :: from <= j ==> !OccursAt(text, title, j);
    }
  }

  /** Step 5: search each title with `SearchTitle`; a title found nowhere is
      skipped, a found one is recorded and moves the cursor past it. Every
      heading is recorded at an actual occurrence of its title, at or after
      the start of its page, with a level among the heading levels. */
  function Locate(hs: seq<Span>, l: Layout, sizes: seq<int>, searchStart: nat): (r: seq<Heading>)
    requires SizesKnown(hs, sizes)
    ensures forall i :: 0 <= i < |r| ==>
      OccursAt(l.fullText, r[i].title, r[i].offset) && PageStart(l.offsets, r[i].page) <= r[i].offset
    ensures forall i :: 0 <= i < |r| ==> 1 <= r[i].level <= |sizes|
  {
    if |hs| == 0 then []
    else
      var m := hs[0];
      var idx := SearchTitle(l.fullText, m.text, PageStart(l.offsets, m.page), searchStart);
      if idx == -1 then
        Locate(hs[1..], l, sizes, searchStart)
      else
        [Heading(m.text, LevelOf(sizes, m.size), m.page, idx)]
          + Locate(hs[1..], l, sizes, idx + |m.text|)
  }

  /** One step of `Locate`, with the search result `idx` and the cursor
      `next` the rest is located from. */
  lemma {:induction false} LocateStep(hs: seq<Span>, l: Layout, sizes: seq<int>, searchStart: nat, idx: int, next: nat)
    requires |hs| > 0 && SizesKnown(hs, sizes)
    requires idx == SearchTitle(l.fullText, hs[0].text, PageStart(l.offsets, hs[0].page), searchStart)
    requires next == if idx == -1 then searchStart else idx + |hs[0].text|
    ensures idx == -1 ==> Locate(hs, l, sizes, searchStart) == Locate(hs[1..], l, sizes, next)
    ensures idx != -1 ==> Locate(hs, l, sizes, searchStart)
                          == [Heading(hs[0].text, LevelOf(sizes, hs[0].size), hs[0].page, idx)] + Locate(hs[1..], l, sizes, next)
  {
    if idx == -1 {
      LocateSkip(hs, l, sizes, searchStart);
    } else {
      LocateKeep(hs, l, sizes, searchStart, idx);
    }
  }

  lemma {:induction false} LocateSkip(hs: seq<Span>, l: Layout, sizes: seq<int>, searchStart: nat)
    requires |hs| > 0 && SizesKnown(hs, sizes)
    requires SearchTitle(l.fullText, hs[0].text, PageStart(l.offsets, hs[0].page), searchStart) == -1
    ensures Locate(hs, l, sizes, searchStart) == Locate(hs[1..], l, sizes, searchStart)
  {
  }

  lemma {:induction false} LocateKeep(hs: seq<Span>, l: Layout, sizes: seq<int>, searchStart: nat, idx: int)
    requires |hs| > 0 && SizesKnown(hs, sizes)
    requires idx == SearchTitle(l.fullText, hs[0].text, PageStart(l.offsets, hs[0].page), searchStart)
    requires idx != -1
    ensures Locate(hs, l, sizes, searchStart)
      == [Heading(hs[0].text, LevelOf(sizes, hs[0].size), hs[0].page, idx)] + Locate(hs[1..], l, sizes, idx + |hs[0].text|)
  {
  }

  /** A located heading carries the title and page of a merged heading, and
      the level of its size. */
  predicate Records(h: Heading, m: Span, sizes: seq<int>) {
    h.title == m.text && h.page == m.page && m.size in sizes && h.level == LevelOf(sizes, m.size)
  }

  /** The located headings record the given merged headings, one for one. */
  predicate RecordsAll(r: seq<Heading>, ms: seq<Span>, sizes: seq<int>) {
    |r| == |ms| && forall i :: 0 <= i < |r| ==> Records(r[i], ms[i], sizes)
  }

  /** A heading is kept exactly when its title is findable: the located
      headings are the findable merged headings, in order, with their titles,
      pages and levels. */
  lemma {:induction false} LocateKeepsFindable(hs: seq<Span>, l: Layout, sizes: seq<int>, searchStart: nat)
    requires SizesKnown(hs, sizes)
    ensures RecordsAll(Locate(hs, l, sizes, searchStart), FindableOnes(hs, l), sizes)
  {
    if |hs| > 0 {
      var m := hs[0];
      var idx := SearchTitle(l.fullText, m.text, PageStart(l.offsets, m.page), searchStart);
      if idx == -1 {
        LocateKeepsFindable(hs[1..], l, sizes, searchStart);
        SkipUnfindable(hs, l, sizes, searchStart);
      } else {
        var next: nat := idx + |m.text|;
        LocateKeepsFindable(hs[1..], l, sizes, next);
        KeepFindable(hs, l, sizes, searchStart, idx, next);
      }
    }
  }

  /** The step of `LocateKeepsFindable` for a title found nowhere. */
  lemma {:induction false} SkipUnfindable(hs: seq<Span>, l: Layout, sizes: seq<int>, searchStart: nat)
    requires |hs| > 0 && SizesKnown(hs, sizes)
    requires SearchTitle(l.fullText, hs[0].text, PageStart(l.offsets, hs[0].page), searchStart) == -1
    requires RecordsAll(Locate(hs[1..], l, sizes, searchStart), FindableOnes(hs[1..], l), sizes)
    ensures RecordsAll(Locate(hs, l, sizes, searchStart), FindableOnes(hs, l), sizes)
  {
    LocateStep(hs, l, sizes, searchStart, -1, searchStart);
    FindableStep(hs, l);
    assert !Findable(l.fullText, l.offsets, hs[0]);
  }

  /** The step of `LocateKeepsFindable` for a title found at `idx`. */
  lemma {:induction false} KeepFindable(hs: seq<Span>, l: Layout, sizes: seq<int>, searchStart: nat, idx: int, next: nat)
    requires |hs| > 0 && SizesKnown(hs, sizes)
    requires idx == SearchTitle(l.fullText, hs[0].text, PageStart(l.offsets, hs[0].page), searchStart)
    requires idx != -1 && next == idx + |hs[0].text|
    requires RecordsAll(Locate(hs[1..], l, sizes, next), FindableOnes(hs[1..], l), sizes)
    ensures RecordsAll(Locate(hs, l, sizes, searchStart), FindableOnes(hs, l), sizes)
  {
    var m := hs[0];
    LocateStep(hs, l, sizes, searchStart, idx, next);
    FindableStep(hs, l);
    assert Findable(l.fullText, l.offsets, m) by {
      assert PageStart(l.offsets, m.page) <= idx && OccursAt(l.fullText, m.text, idx);
    }
    RecordsCons(Heading(m.text, LevelOf(sizes, m.size), m.page, idx), m,
                Locate(hs[1..], l, sizes, next), FindableOnes(hs[1..], l), sizes);
  }

  lemma {:induction false} RecordsCons(h: Heading, m: Span, rest: seq<Heading>, found: seq<Span>, sizes: seq<int>)
    requires Records(h, m, sizes)
    requires RecordsAll(rest, found, sizes)
    ensures RecordsAll([h] + rest, [m] + found, sizes)
  {
    forall i | 1 <= i < |found| + 1
      ensures Records(([h] + rest)[i], ([m] + found)[i], sizes)
    {
      assert ([h] + rest)[i] == rest[i - 1];
      assert ([m] + found)[i] == found[i - 1];
    }
  }

  /** Each heading lies behind the cursor left by the one before it, the
      first behind `cursor`. */
  ghost predicate InOrder(text: string, cursor: int, r: seq<Heading>) {
    && (|r| > 0 ==> Behind(text, cursor, r[0]))
    && forall i :: 0 <= i < |r| - 1 ==> Behind(text, r[i].offset + |r[i].title|, r[i + 1])
  }

  /** The located headings lie in search order: each behind the cursor left
      by the previous one, the first behind `searchStart`. */
  lemma {:induction false} LocateInOrder(hs: seq<Span>, l: Layout, sizes: seq<int>, searchStart: nat)
    requires SizesKnown(hs, sizes)
    ensures InOrder(l.fullText, searchStart, Locate(hs, l, sizes, searchStart))
  {
    if |hs| > 0 {
      var m := hs[0];
      var idx := SearchTitle(l.fullText, m.text, PageStart(l.offsets, m.page), searchStart);
      var next: nat := if idx == -1 then searchStart else idx + |m.text|;
      LocateInOrder(hs[1..], l, sizes, next);
      InOrderStep(hs, l, sizes, searchStart, idx, next);
    }
  }

  /** The step of `LocateInOrder`. */
  lemma {:induction false} InOrderStep(hs: seq<Span>, l: Layout, sizes: seq<int>, searchStart: nat, idx: int, next: nat)
    requires |hs| > 0 && SizesKnown(hs, sizes)
    requires idx == SearchTitle(l.fullText, hs[0].text, PageStart(l.offsets, hs[0].page), searchStart)
    requires next == if idx == -1 then searchStart else idx + |hs[0].text|
    requires InOrder(l.fullText, next, Locate(hs[1..], l, sizes, next))
    ensures InOrder(l.fullText, searchStart, Locate(hs, l, sizes, searchStart))
  {
    LocateStep(hs, l, sizes, searchStart, idx, next);
    if idx != -1 {
      InOrderCons(l.fullText, searchStart, Heading(hs[0].text, LevelOf(sizes, hs[0].size), hs[0].page, idx),
                  Locate(hs[1..], l, sizes, next));
    }
  }

  lemma {:induction false} InOrderCons(text: string, cursor: int, h: Heading, rest: seq<Heading>)
    requires Behind(text, cursor, h)
    requires InOrder(text, h.offset + |h.title|, rest)
    ensures InOrder(text, cursor, [h] + rest)
  {
    var r := [h] + rest;
    forall i | 1 <= i < |r| - 1
      ensures Behind(text, r[i].offset + |r[i].title|, r[i + 1])
    {
      assert r[i] == rest[i - 1] && r[i + 1] == rest[i];
    }
  }

  /** Each heading sits where the searches from the cursor left by the one
      before it stop (the first from `cursor`). */
  ghost predicate FoundFirst(text: string, offsets: seq<PageRange>, cursor: int, r: seq<Heading>) {
    && (|r| > 0 ==> FirstFound(text, r[0].title, PageStart(offsets, r[0].page), cursor, r[0].offset))
    && forall i :: 0 <= i < |r| - 1 ==>
         FirstFound(text, r[i + 1].title, PageStart(offsets, r[i + 1].page), r[i].offset + |r[i].title|, r[i + 1].offset)
  }

  /** Each heading sits where `SearchTitle` stops when started from the
      cursor the one before it left (the first from `cursor`). */
  ghost predicate SearchedFrom(text: string, offsets: seq<PageRange>, cursor: nat, r: seq<Heading>) {
    && (|r| > 0 ==> r[0].offset == SearchTitle(text, r[0].title, PageStart(offsets, r[0].page), cursor))
    && forall i :: 0 <= i < |r| - 1 ==>
         r[i + 1].offset == SearchTitle(text, r[i + 1].title, PageStart(offsets, r[i + 1].page), r[i].offset + |r[i].title|)
  }

  lemma {:induction false} LocateSearched(hs: seq<Span>, l: Layout, sizes: seq<int>, searchStart: nat)
    requires SizesKnown(hs, sizes)
    ensures SearchedFrom(l.fullText, l.offsets, searchStart, Locate(hs, l, sizes, searchStart))
  {
    if |hs| > 0 {
      var m := hs[0];
      var idx := SearchTitle(l.fullText, m.text, PageStart(l.offsets, m.page), searchStart);
      var next: nat := if idx == -1 then searchStart else idx + |m.text|;
      LocateSearched(hs[1..], l, sizes, next);
      LocateStep(hs, l, sizes, searchStart, idx, next);
      if idx != -1 {
        SearchedCons(l.fullText, l.offsets, searchStart, Heading(m.text, LevelOf(sizes, m.size), m.page, idx),
                     Locate(hs[1..], l, sizes, next));
      }
    }
  }

  lemma {:induction false} SearchedCons(text: string, offsets: seq<PageRange>, cursor: nat, h: Heading, rest: seq<Heading>)
    requires h.offset == SearchTitle(text, h.title, PageStart(offsets, h.page), cursor)
    requires SearchedFrom(text, offsets, h.offset + |h.title|, rest)
    ensures SearchedFrom(text, offsets, cursor, [h] + rest)
  {
    var r := [h] + rest;
    forall i | 1 <= i < |r| - 1
      ensures r[i + 1].offset == SearchTitle(text, r[i + 1].title, PageStart(offsets, r[i + 1].page), r[i].offset + |r[i].title|)
    {
      assert r[i] == rest[i - 1] && r[i + 1] == rest[i];
    }
  }

  /** Every located heading is recorded at the first occurrence the two
      searches meet: from the later of the cursor the previous heading left
      and its page start, or else from its page start. */
  lemma {:induction false} LocateFindsFirst(hs: seq<Span>, l: Layout, sizes: seq<int>, searchStart: nat)
    requires SizesKnown(hs, sizes)
    ensures FoundFirst(l.fullText, l.offsets, searchStart, Locate(hs, l, sizes, searchStart))
  {
    LocateSearched(hs, l, sizes, searchStart);
    SearchedFirst(l.fullText, l.offsets, searchStart, Locate(hs, l, sizes, searchStart));
  }

  /** Headings placed where the searches stop sit at first occurrences. */
  lemma {:induction false} SearchedFirst(text: string, offsets: seq<PageRange>, cursor: nat, r: seq<Heading>)
    requires SearchedFrom(text, offsets, cursor, r)
    ensures FoundFirst(text, offsets, cursor, r)
  {
    if |r| > 0 {
      SearchTitleFirst(text, r[0].title, PageStart(offsets, r[0].page), cursor);
    }
    forall i | 0 <= i < |r| - 1
      ensures FirstFound(text, r[i + 1].title, PageStart(offsets, r[i + 1].page), r[i].offset + |r[i].title|, r[i + 1].offset)
    {
      SearchTitleFirst(text, r[i + 1].title, PageStart(offsets, r[i + 1].page), r[i].offset + |r[i].title|);
    }
  }
}

=== FILE: layout.dfy ===
/** The document text the structure parser searches (src/structure_parser.py,
    step 1): every page's markdown followed by a blank line, concatenated in
    page order, together with the table of each page's `[start, end)` range. */
module PageLayout {
  import opened Text
  import opened Models

  /** One `(start, end, page_number)` entry of the page-offset table. */
  datatype PageRange = PageRange(start: nat, end: nat, page: int)

  /** The concatenated text and its page-offset table. */
  datatype Layout = Layout(fullText: string, offsets: seq<PageRange>)

  /** The text each page contributes: its markdown and a blank line. */
  function PagePart(p: PageResult): string {
    p.markdown + "\n\n"
  }

  /** The ranges tile the text from 0 to its length in page order, and each
      holds exactly its page's part. */
  predicate Tiles(pages: seq<PageResult>, l: Layout) {
    && |l.offsets| == |pages|
    && (|pages| == 0 ==> l.fullText == "")
    && (|pages| > 0 ==> l.offsets[0].start == 0 && l.offsets[|pages| - 1].end == |l.fullText|)
    && (forall i :: 0 <= i < |pages| - 1 ==> l.offsets[i].end == l.offsets[i + 1].start)
    && (forall i, j :: 0 <= i < j < |pages| ==> l.offsets[i].end <= l.offsets[j].start)
    && (forall i :: 0 <= i < |pages| ==>
         && l.offsets[i].start < l.offsets[i].end <= |l.fullText|
         && l.fullText[l.offsets[i].start..l.offsets[i].end] == PagePart(pages[i])
         && l.offsets[i].page == pages[i].pageNumber)
  }

  /** Step 1 of `parse`: append each page's part to the text and record the
      range it occupies. */
  function LayOut(pages: seq<PageResult>): (l: Layout)
    ensures Tiles(pages, l)
  {
    if |pages| == 0 then Layout("", [])
    else
      var prev := LayOut(pages[..|pages| - 1]);
      var p := pages[|pages| - 1];
      var l := Layout(prev.fullText + PagePart(p),
                      prev.offsets + [PageRange(|prev.fullText|, |prev.fullText| + |PagePart(p)|, p.pageNumber)]);
      AppendPage(pages, prev, l);
      l
  }

  lemma {:induction false} AppendPage(pages: seq<PageResult>, prev: Layout, l: Layout)
    requires |pages| > 0
    requires Tiles(pages[..|pages| - 1], prev)
    requires l.fullText == prev.fullText + PagePart(pages[|pages| - 1])
    requires l.offsets == prev.offsets
      + [PageRange(|prev.fullText|, |l.fullText|, pages[|pages| - 1].pageNumber)]
    ensures Tiles(pages, l)
  {
    var n := |pages|;
    var init := pages[..n - 1];
    forall i | 0 <= i < n
      ensures l.offsets[i].start < l.offsets[i].end <= |l.fullText|
      ensures l.fullText[l.offsets[i].start..l.offsets[i].end] == PagePart(pages[i])
      ensures l.offsets[i].page == pages[i].pageNumber
    {
      if i < n - 1 {
        assert l.offsets[i] == prev.offsets[i];
        assert pages[i] == init[i];
        assert l.fullText[l.offsets[i].start..l.offsets[i].end]
          == prev.fullText[l.offsets[i].start..l.offsets[i].end];
      } else {
        assert l.fullText[|prev.fullText|..] == PagePart(pages[i]);
      }
    }
    forall i, j | 0 <= i < j < n ensures l.offsets[i].end <= l.offsets[j].start {
      if j < n - 1 {
        assert l.offsets[i] == prev.offsets[i] && l.offsets[j] == prev.offsets[j];
      } else if i < n - 1 {
        assert l.offsets[i] == prev.offsets[i];
      }
    }
    forall i | 0 <= i < n - 1 ensures l.offsets[i].end == l.offsets[i + 1].start {
      assert l.offsets[i] == prev.offsets[i];
      if i + 1 < n - 1 {
        assert l.offsets[i + 1] == prev.offsets[i + 1];
      }
    }
  }

  /** `offset` lies in the half-open range `[start, end)`. */
  predicate InRange(r: PageRange, offset: int) {
    r.start <= offset < r.end
  }

  /** The loop of `_offset_to_page` from entry `k` on: the first entry whose
      range holds `offset`, else the last entry's page. */
  function ScanFrom(offset: int, offsets: seq<PageRange>, k: nat): int
    requires 0 < |offsets| && k <= |offsets|
    decreases |offsets| - k
  {
    if k == |offsets| then offsets[|offsets| - 1].page
    else if InRange(offsets[k], offset) then offsets[k].page
    else ScanFrom(offset, offsets, k + 1)
  }

  /** `_offset_to_page`: the page of the first range holding `offset`; the
      last page when no range holds it; 1 when the table is empty. */
  function OffsetToPage(offset: int, offsets: seq<PageRange>): (r: int)
    ensures |offsets| == 0 ==> r == 1
  {
    if |offsets| > 0 then ScanFrom(offset, offsets, 0) else 1
  }

  /** On a non-empty table the result is always the page of one of the
      ranges, whether or not a range holds `offset`. */
  lemma {:induction false} OffsetToPageIsPage(offset: int, offsets: seq<PageRange>)
    requires 0 < |offsets|
    ensures exists i :: 0 <= i < |offsets| && OffsetToPage(offset, offsets) == offsets[i].page
  {
    ScanFromPage(offset, offsets, 0);
  }

  /** The scan from entry `k` returns the page of one of the ranges. */
  lemma {:induction false} ScanFromPage(offset: int, offsets: seq<PageRange>, k: nat)
    requires 0 < |offsets| && k <= |offsets|
    ensures exists i :: 0 <= i < |offsets| && ScanFrom(offset, offsets, k) == offsets[i].page
    decreases |offsets| - k
  {
    if k == |offsets| {
      assert ScanFrom(offset, offsets, k) == offsets[|offsets| - 1].page;
    } else if InRange(offsets[k], offset) {
      assert ScanFrom(offset, offsets, k) == offsets[k].page;
    } else {
      ScanFromPage(offset, offsets, k + 1);
    }
  }

  lemma {:induction false} ScanFromSpec(offset: int, offsets: seq<PageRange>, k: nat, i: nat)
    requires 0 < |offsets| && k <= |offsets|
    ensures (k <= i < |offsets| && InRange(offsets[i], offset)
      && (forall j :: k <= j < i ==> !InRange(offsets[j], offset))) ==> ScanFrom(offset, offsets, k) == offsets[i].page
    ensures (forall j :: k <= j < |offsets| ==> !InRange(offsets[j], offset))
      ==> ScanFrom(offset, offsets, k) == offsets[|offsets| - 1].page
    decreases |offsets| - k
  {
    if k < |offsets| {
      ScanFromSpec(offset, offsets, k + 1, i);
    }
  }

  /** The result is the page of the first range holding `offset` (here the
      `i`-th); the last page when no range holds it; 1 when the table is
      empty. */
  lemma {:induction false} OffsetToPageSpec(offset: int, offsets: seq<PageRange>, i: nat)
    ensures (i < |offsets| && InRange(offsets[i], offset)
      && (forall j :: 0 <= j < i ==> !InRange(offsets[j], offset))) ==> OffsetToPage(offset, offsets) == offsets[i].page
    ensures (forall j :: 0 <= j < |offsets| ==> !InRange(offsets[j], offset))
      ==> OffsetToPage(offset, offsets) == (if |offsets| > 0 then offsets[|offsets| - 1].page else 1)
  {
    if |offsets| > 0 {
      ScanFromSpec(offset, offsets, 0, i);
    }
  }

  /** On a layout, an offset inside a page's part maps back to that page. */
  lemma {:induction false} OffsetToPageOnLayout(pages: seq<PageResult>, i: nat, offset: int)
    requires i < |pages|
    requires InRange(LayOut(pages).offsets[i], offset)
    ensures OffsetToPage(offset, LayOut(pages).offsets) == pages[i].pageNumber
  {
    var l := LayOut(pages);
    forall j | 0 <= j < i ensures !InRange(l.offsets[j], offset) {
      assert l.offsets[j].end <= l.offsets[i].start;
    }
    OffsetToPageSpec(offset, l.offsets, i);
  }

  /** Every offset of the text lies in some page's range. */
  lemma {:induction false} LayoutCovers(pages: seq<PageResult>, offset: int) returns (i: nat)
    requires 0 <= offset < |LayOut(pages).fullText|
    ensures i < |pages| && InRange(LayOut(pages).offsets[i], offset)
  {
    var n := |pages|;
    var prev := LayOut(pages[..n - 1]);
    var l := LayOut(pages);
    if offset < |prev.fullText| {
      i := LayoutCovers(pages[..n - 1], offset);
      assert l.offsets[i] == prev.offsets[i];
    } else {
      i := n - 1;
    }
  }

  /** So within the text, `_offset_to_page` never falls back to its default. */
  lemma {:induction false} OffsetToPageInText(pages: seq<PageResult>, offset: int)
    requires 0 <= offset < |LayOut(pages).fullText|
    ensures exists i :: 0 <= i < |pages| && OffsetToPage(offset, LayOut(pages).offsets) == pages[i].pageNumber
  {
    var i := LayoutCovers(pages, offset);
    OffsetToPageOnLayout(pages, i, offset);
  }

  /** When every page's markdown is blank, so is the whole text. */
  lemma {:induction false} BlankPagesBlankText(pages: seq<PageResult>)
    requires forall i :: 0 <= i < |pages| ==> Blank(pages[i].markdown)
    ensures Blank(LayOut(pages).fullText)
  {
    if |pages| > 0 {
      var prev := LayOut(pages[..|pages| - 1]);
      BlankPagesBlankText(pages[..|pages| - 1]);
      var p := pages[|pages| - 1];
      assert Blank(p.markdown);
      var text := prev.fullText + PagePart(p);
      forall k | 0 <= k < |text| ensures IsSpace(text[k]) {
        if k < |prev.fullText| {
          assert text[k] == prev.fullText[k];
        } else if k < |prev.fullText| + |p.markdown| {
          assert text[k] == p.markdown[k - |prev.fullText|];
        } else {
          assert text[k] == '\n';
        }
      }
    }
  }

  /** The non-blank pages, in order. */
  function NonBlankPages(pages: seq<PageResult>): (r: seq<PageResult>)
    ensures forall p :: p in r ==> p in pages && !Blank(p.markdown)
  {
    if |pages| == 0 then []
    else if Blank(pages[0].markdown) then NonBlankPages(pages[1..])
    else [pages[0]] + NonBlankPages(pages[1..])
  }

  /** No page survives the filter exactly when every page is blank. */
  lemma {:induction false} NonBlankPagesEmpty(pages: seq<PageResult>)
    ensures NonBlankPages(pages) == [] <==> forall i :: 0 <= i < |pages| ==> Blank(pages[i].markdown)
  {
    if |pages| > 0 {
      NonBlankPagesEmpty(pages[1..]);
      assert forall i :: 1 <= i < |pages| ==> pages[i] == pages[1..][i - 1];
    }
  }

  /** Every non-blank page survives the filter. */
  lemma {:induction false} NonBlankPagesKeeps(pages: seq<PageResult>)
    ensures forall i :: 0 <= i < |pages| && !Blank(pages[i].markdown) ==> pages[i] in NonBlankPages(pages)
  {
    if |pages| > 0 {
      NonBlankPagesKeeps(pages[1..]);
      assert forall i :: 1 <= i < |pages| ==> pages[i] == pages[1..][i - 1];
    }
  }

  /** A single page survives exactly when it is not blank. */
  lemma {:induction false} NonBlankPagesSingle(p: PageResult)
    ensures NonBlankPages([p]) == if Blank(p.markdown) then [] else [p]
  {
    assert [p][1..] == [];
  }

  /** The filter works page by page: the non-blank pages of two runs are
      those of the first followed by those of the second, so the pages kept
      are all the non-blank ones, in their original order. */
  lemma {:induction false} NonBlankPagesAppend(a: seq<PageResult>, b: seq<PageResult>)
    ensures NonBlankPages(a + b) == NonBlankPages(a) + NonBlankPages(b)
    decreases |a|
  {
    if |a| > 0 {
      assert (a + b)[0] == a[0];
      assert (a + b)[1..] == a[1..] + b;
      NonBlankPagesAppend(a[1..], b);
    } else {
      assert a + b == b;
    }
  }
}

=== FILE: markdown.dfy ===
/** Markdown produced by the extractor (src/extractor.py): pipe tables, the
    raw-text fallback used when pymupdf4llm yields too little, and the rule
    that chooses between the two. */
module Markdown {
  import opened Text
  import opened Models

  // ----------------------------------------------------------------------
  // Pipe tables
  // ----------------------------------------------------------------------

  /** One pipe-table line: the cells joined by " | " inside "| " and " |". */
  function RowLine(cells: seq<string>): string {
    "| " + Join(" | ", cells) + " |"
  }

  /** The cells as they sit between two pipes, one space on either side. */
  function Padded(cells: seq<string>): seq<string> {
    seq(|cells|, i requires 0 <= i < |cells| => " " + cells[i] + " ")
  }

  /** The separator cells, one "---" per header. */
  function Dashes(n: nat): seq<string> {
    seq(n, _ => "---")
  }

  /** Header line, separator line, then one line per data row. */
  function TableLines(t: TableData): seq<string> {
    [RowLine(t.headers), RowLine(Dashes(|t.headers|))]
      + seq(|t.rows|, i requires 0 <= i < |t.rows| => RowLine(t.rows[i]))
  }

  /** `_table_to_markdown`: the empty string for a table without headers,
      otherwise the table's lines joined by newlines, header line first. */
  function TableToMarkdown(t: TableData): (r: string)
    ensures r == "" <==> |t.headers| == 0
    ensures |t.headers| > 0 ==> StartsWith(r, RowLine(t.headers))
  {
    if |t.headers| == 0 then "" else Join("\n", TableLines(t))
  }

  /** No header or data cell contains a newline. */
  predicate SingleLineCells(t: TableData) {
    && (forall j :: 0 <= j < |t.headers| ==> '\n' !in t.headers[j])
    && (forall i, j :: 0 <= i < |t.rows| && 0 <= j < |t.rows[i]| ==> '\n' !in t.rows[i][j])
  }

  lemma {:induction false} PaddedJoin(cells: seq<string>)
    requires |cells| >= 1
    ensures " " + Join(" | ", cells) + " " == Join("|", Padded(cells))
  {
    if |cells| > 1 {
      PaddedJoin(cells[1..]);
      assert Padded(cells[1..]) == Padded(cells)[1..];
    }
  }

  lemma {:induction false} FramedJoin(xs: seq<string>)
    requires |xs| >= 1
    ensures "|" + Join("|", xs) + "|" == Join("|", [""] + xs + [""])
  {
    var ys := [""] + xs + [""];
    assert ys[1..] == xs + [""];
    JoinSnoc("|", xs, "");
  }

  /** A row line splits on '|' back into its cells, in their original order,
      each framed by one space, when no cell holds a pipe. */
  lemma {:induction false} RowLineCells(cells: seq<string>)
    requires |cells| >= 1
    requires forall j :: 0 <= j < |cells| ==> '|' !in cells[j]
    ensures Split(RowLine(cells), '|') == [""] + Padded(cells) + [""]
    ensures |Split(RowLine(cells), '|')| == |cells| + 2
  {
    PaddedJoin(cells);
    FramedJoin(Padded(cells));
    var ys := [""] + Padded(cells) + [""];
    assert RowLine(cells) == Join("|", ys);
    forall k | 0 <= k < |ys|
      ensures '|' !in ys[k]
    {
      if 0 < k < |ys| - 1 {
        assert ys[k] == " " + cells[k - 1] + " ";
      }
    }
    SplitJoin(ys, '|');
  }

  /** The separator line holds exactly one " --- " cell per header, framed by
      a leading and a trailing pipe. */
  lemma {:induction false} SeparatorCells(n: nat)
    requires n >= 1
    ensures Split(RowLine(Dashes(n)), '|') == [""] + seq(n, _ => " --- ") + [""]
    ensures |Split(RowLine(Dashes(n)), '|')| == n + 2
  {
    RowLineCells(Dashes(n));
    assert forall k :: 0 <= k < n ==> Padded(Dashes(n))[k] == " --- ";
    assert Padded(Dashes(n)) == seq(n, _ => " --- ");
  }

  lemma {:induction false} RowLineSingle(cells: seq<string>)
    requires forall j :: 0 <= j < |cells| ==> '\n' !in cells[j]
    ensures '\n' !in RowLine(cells)
  {
    JoinAvoids(" | ", cells, '\n');
  }

  /** With single-line cells, the markdown of a table with headers has exactly
      2 + |rows| lines: header, separator, then the rows in order. */
  lemma {:induction false} TableMarkdownLines(t: TableData)
    requires |t.headers| > 0
    requires SingleLineCells(t)
    ensures Split(TableToMarkdown(t), '\n') == TableLines(t)
    ensures |Split(TableToMarkdown(t), '\n')| == 2 + |t.rows|
    ensures Split(TableToMarkdown(t), '\n')[0] == RowLine(t.headers)
    ensures Split(TableToMarkdown(t), '\n')[1] == RowLine(Dashes(|t.headers|))
    ensures forall i :: 0 <= i < |t.rows| ==> Split(TableToMarkdown(t), '\n')[2 + i] == RowLine(t.rows[i])
  {
    var lines := TableLines(t);
    RowLineSingle(t.headers);
    RowLineSingle(Dashes(|t.headers|));
    forall k | 0 <= k < |lines|
      ensures '\n' !in lines[k]
    {
      if k >= 2 {
        RowLineSingle(t.rows[k - 2]);
      }
    }
    SplitJoin(lines, '\n');
  }

  /** The markdown of a table is blank exactly when it has no headers: the
      chunker's "skip blank table markdown" test is the extractor's "skip
      tables without headers" test. */
  lemma {:induction false} TableMarkdownBlank(t: TableData)
    ensures Blank(TableToMarkdown(t)) <==> |t.headers| == 0
  {
    if |t.headers| > 0 {
      var r := TableToMarkdown(t);
      assert r[0] == '|';
    }
  }

  // ----------------------------------------------------------------------
  // Raw-text fallback
  // ----------------------------------------------------------------------

  /** One pass of the cleanup loop: a non-blank line is kept stripped; a blank
      line adds a single "" unless the list is empty or already ends in "". */
  function CleanStep(cleaned: seq<string>, line: string): seq<string> {
    var l := Strip(line);
    if l == "" then
      if |cleaned| > 0 && cleaned[|cleaned| - 1] != "" then cleaned + [""] else cleaned
    else
      cleaned + [l]
  }

  /** The shape of a cleaned line list: no leading "", never two "" in a row,
      every entry already stripped. */
  predicate WellShaped(c: seq<string>) {
    && (|c| > 0 ==> c[0] != "")
    && (forall i :: 0 <= i < |c| - 1 ==> c[i] != "" || c[i + 1] != "")
    && (forall i :: 0 <= i < |c| ==> Strip(c[i]) == c[i])
  }

  /** The cleanup loop of `_build_fallback_markdown` over the raw lines. */
  function CleanLines(lines: seq<string>): (r: seq<string>)
    ensures WellShaped(r)
    ensures |r| <= |lines|
  {
    if |lines| == 0 then []
    else
      var init := CleanLines(lines[..|lines| - 1]);
      CleanStepShaped(init, lines[|lines| - 1]);
      CleanStep(init, lines[|lines| - 1])
  }

  /** One cleanup pass keeps the list well shaped and adds at most one entry. */
  lemma {:induction false} CleanStepShaped(cleaned: seq<string>, line: string)
    requires WellShaped(cleaned)
    ensures WellShaped(CleanStep(cleaned, line))
    ensures |CleanStep(cleaned, line)| <= |cleaned| + 1
  {
    var l := Strip(line);
    StripIdempotent(line);
    if l == "" {
      if |cleaned| > 0 && cleaned[|cleaned| - 1] != "" {
        assert Strip("") == "";
        AppendShaped(cleaned, "");
      }
    } else {
      AppendShaped(cleaned, l);
    }
  }

  /** Appending a stripped entry keeps the shape, unless it makes a leading
      "" or a second "" in a row. */
  lemma {:induction false} AppendShaped(c: seq<string>, x: string)
    requires WellShaped(c)
    requires Strip(x) == x
    requires x == "" ==> |c| > 0 && c[|c| - 1] != ""
    ensures WellShaped(c + [x])
  {
    var r := c + [x];
    forall i | 0 <= i < |r| ensures Strip(r[i]) == r[i] {
      if i < |c| {
        assert r[i] == c[i];
      }
    }
    forall i | 0 <= i < |r| - 1 ensures r[i] != "" || r[i + 1] != "" {
      if i < |c| - 1 {
        assert r[i] == c[i] && r[i + 1] == c[i + 1];
      }
    }
  }

  /** Every line of `q` is blank. */
  predicate AllBlank(q: seq<string>) {
    forall i :: 0 <= i < |q| ==> Blank(q[i])
  }

  /** The "" the cleanup leaves for a run of blank lines: one when the run is
      non-empty and follows text, none otherwise. */
  function GapMark(cleaned: seq<string>, q: seq<string>): seq<string> {
    if |q| > 0 && |cleaned| > 0 && cleaned[|cleaned| - 1] != "" then [""] else []
  }

  /** A run of blank lines adds at most one "" to the cleaned list, and only
      after text. */
  lemma {:induction false} CleanBlankRun(p: seq<string>, q: seq<string>)
    requires AllBlank(q)
    ensures CleanLines(p + q) == CleanLines(p) + GapMark(CleanLines(p), q)
    decreases |q|
  {
    if |q| > 0 {
      var q' := q[..|q| - 1];
      assert AllBlank(q') by {
        forall i | 0 <= i < |q'| ensures Blank(q'[i]) {
          assert q'[i] == q[i];
        }
      }
      CleanBlankRun(p, q');
      var last := q[|q| - 1];
      SnocSplit(p, q);
      CleanSnoc(p + q', last);
      GapStep(CleanLines(p), q', last);
    } else {
      assert p + q == p;
    }
  }

  /** A blank line after a run of blank lines extends the run's mark. */
  lemma {:induction false} GapStep(c: seq<string>, q: seq<string>, last: string)
    requires Blank(last)
    ensures CleanStep(c + GapMark(c, q), last) == c + GapMark(c, q + [last])
  {
    assert Strip(last) == "";
  }

  /** One more raw line is one more cleanup step. */
  lemma {:induction false} CleanSnoc(p: seq<string>, x: string)
    ensures CleanLines(p + [x]) == CleanStep(CleanLines(p), x)
  {
    assert (p + [x])[..|p + [x]| - 1] == p;
  }

  /** A non-blank line adds exactly its stripped self. */
  lemma {:induction false} CleanTextLine(p: seq<string>, t: string)
    requires !Blank(t)
    ensures CleanLines(p + [t]) == CleanLines(p) + [Strip(t)]
  {
    CleanSnoc(p, t);
  }

  /** Blank lines before the first text leave nothing. */
  lemma {:induction false} CleanAllBlank(q: seq<string>)
    requires AllBlank(q)
    ensures CleanLines(q) == []
  {
    CleanBlankRun([], q);
    assert [] + q == q;
  }

  /** The cleaned list of lines ending in text ends with that text, stripped. */
  lemma {:induction false} CleanEndsInText(p: seq<string>)
    requires |p| > 0 && !Blank(p[|p| - 1])
    ensures |CleanLines(p)| > 0 && CleanLines(p)[|CleanLines(p)| - 1] == Strip(p[|p| - 1])
    ensures CleanLines(p)[|CleanLines(p)| - 1] != ""
  {
    CleanTextLine(p[..|p| - 1], p[|p| - 1]);
    assert p[..|p| - 1] + [p[|p| - 1]] == p;
  }

  /** Between two consecutive text lines the cleaned list holds one "" exactly
      when at least one blank line separates them in the raw text. */
  lemma {:induction false} CleanGap(p: seq<string>, q: seq<string>, t: string)
    requires |p| > 0 && !Blank(p[|p| - 1])
    requires AllBlank(q) && !Blank(t)
    ensures CleanLines(p + q + [t])
      == CleanLines(p) + (if |q| > 0 then [""] else []) + [Strip(t)]
  {
    CleanEndsInText(p);
    CleanBlankRun(p, q);
    CleanTextLine(p + q, t);
  }

  /** Blank lines after the last text line leave exactly one trailing "". */
  lemma {:induction false} CleanTrailing(p: seq<string>, q: seq<string>)
    requires |p| > 0 && !Blank(p[|p| - 1])
    requires AllBlank(q)
    ensures CleanLines(p + q) == CleanLines(p) + (if |q| > 0 then [""] else [])
  {
    CleanEndsInText(p);
    CleanBlankRun(p, q);
  }

  /** Blank lines before the first text line are dropped. */
  lemma {:induction false} CleanLeading(q: seq<string>, t: string)
    requires AllBlank(q) && !Blank(t)
    ensures CleanLines(q + [t]) == [Strip(t)]
  {
    CleanAllBlank(q);
    CleanTextLine(q, t);
  }

  /** The stripped non-blank lines, in order (the reference the cleanup is
      compared with). */
  function NonBlankStripped(lines: seq<string>): seq<string> {
    if |lines| == 0 then []
    else
      var init := NonBlankStripped(lines[..|lines| - 1]);
      var l := Strip(lines[|lines| - 1]);
      if l == "" then init else init + [l]
  }

  /** The entries of `c` other than "". */
  function NonEmpty(c: seq<string>): seq<string> {
    if |c| == 0 then []
    else
      var init := NonEmpty(c[..|c| - 1]);
      if c[|c| - 1] == "" then init else init + [c[|c| - 1]]
  }

  /** Every non-blank raw line survives the cleanup, stripped and in its
      original order, and nothing else but "" separators is added. */
  lemma {:induction false} CleanKeepsText(lines: seq<string>)
    ensures NonEmpty(CleanLines(lines)) == NonBlankStripped(lines)
  {
    if |lines| > 0 {
      var init := CleanLines(lines[..|lines| - 1]);
      CleanKeepsText(lines[..|lines| - 1]);
      var l := Strip(lines[|lines| - 1]);
      if l == "" {
        if |init| > 0 && init[|init| - 1] != "" {
          assert (init + [""])[..|init|] == init;
        }
      } else {
        assert (init + [l])[..|init|] == init;
      }
    }
  }

  /** Cleaned lines of newline-free raw lines are newline-free. */
  lemma {:induction false} CleanLinesSingle(lines: seq<string>)
    requires forall i :: 0 <= i < |lines| ==> '\n' !in lines[i]
    ensures forall i :: 0 <= i < |CleanLines(lines)| ==> '\n' !in CleanLines(lines)[i]
  {
    if |lines| > 0 {
      var init := CleanLines(lines[..|lines| - 1]);
      CleanLinesSingle(lines[..|lines| - 1]);
      StripAvoids(lines[|lines| - 1], '\n');
      var r := CleanLines(lines);
      assert r == CleanStep(init, lines[|lines| - 1]);
      forall i | 0 <= i < |r| ensures '\n' !in r[i] {
        if i < |init| { assert r[i] == init[i]; }
      }
    }
  }

  /** The markdown of each table that has headers, in table order. */
  function TableMarkdowns(tables: seq<TableData>): (r: seq<string>)
    ensures |r| <= |tables|
    ensures forall i :: 0 <= i < |r| ==> r[i] != ""
  {
    if |tables| == 0 then []
    else
      (if |tables[0].headers| > 0 then [TableToMarkdown(tables[0])] else [])
        + TableMarkdowns(tables[1..])
  }

  /** The cleaned raw text: the cleaned lines joined by newlines. */
  function CleanText(raw: string): string {
    Join("\n", CleanLines(Split(raw, '\n')))
  }

  /** `_build_fallback_markdown`: the cleaned raw text, then for each table
      with headers a newline-joined part "\n\n" + its markdown. */
  function BuildFallbackMarkdown(raw: string, tables: seq<TableData>): (r: string)
    ensures StartsWith(r, CleanText(raw))
    ensures TableMarkdowns(tables) == [] ==> r == CleanText(raw)
    ensures TableMarkdowns(tables) != [] ==> StartsWith(r, CleanText(raw) + "\n\n\n") && |r| > |CleanText(raw)| + 3
  {
    var tms := TableMarkdowns(tables);
    var parts := seq(|tms|, i requires 0 <= i < |tms| => "\n\n" + tms[i]);
    var a := CleanText(raw);
    JoinCons("\n", a, parts);
    StartsWithFront(a, "", "");
    if |tms| > 0 then
      FallbackTablesFollow(a, parts, tms[0]);
      Join("\n", [a] + parts)
    else
      Join("\n", [a] + parts)
  }

  /** With tables, the join after the cleaned text starts with three newlines. */
  lemma {:induction false} FallbackTablesFollow(a: string, parts: seq<string>, t: string)
    requires |parts| > 0 && parts[0] == "\n\n" + t && t != ""
    ensures StartsWith(a + "\n" + Join("\n", parts), a)
    ensures StartsWith(a + "\n" + Join("\n", parts), a + "\n\n\n")
    ensures |a + "\n" + Join("\n", parts)| > |a| + 3
  {
    var j := Join("\n", parts);
    JoinPrefix("\n", parts);
    StartsWithFront("\n\n", t, "");
    StartsWithTrans(j, parts[0], "\n\n");
    StartsWithFront(a + "\n", j, "\n\n");
    NewlineThenTwo(a);
    StartsWithFront(a, "\n", "");
    StartsWithTrans(a + "\n" + j, a + "\n", a);
  }

  lemma {:induction false} NewlineThenTwo(a: string)
    ensures a + "\n\n\n" == (a + "\n") + "\n\n"
  {
  }

  /** Each part prefixed by the separator, concatenated. */
  function PrefixEach(sep: string, xs: seq<string>): string {
    if |xs| == 0 then "" else sep + xs[0] + PrefixEach(sep, xs[1..])
  }

  lemma {:induction false} JoinHead(sep: string, a: string, xs: seq<string>)
    ensures Join(sep, [a] + xs) == a + PrefixEach(sep, xs)
    decreases |xs|
  {
    if |xs| > 0 {
      assert ([a] + xs)[1..] == xs;
      JoinHead(sep, xs[0], xs[1..]);
      assert [xs[0]] + xs[1..] == xs;
    }
  }

  /** The fallback markdown is the cleaned text followed, for every table
      with headers and in table order, by "\n\n\n" and the table's markdown;
      tables without headers leave no trace. */
  lemma {:induction false} FallbackLayout(raw: string, tables: seq<TableData>)
    ensures BuildFallbackMarkdown(raw, tables)
      == CleanText(raw) + PrefixEach("\n\n\n", TableMarkdowns(tables))
    ensures (forall i :: 0 <= i < |tables| ==> |tables[i].headers| == 0)
      ==> BuildFallbackMarkdown(raw, tables) == CleanText(raw)
  {
    var tms := TableMarkdowns(tables);
    var parts := seq(|tms|, i requires 0 <= i < |tms| => "\n\n" + tms[i]);
    JoinHead("\n", CleanText(raw), parts);
    PrefixShift(tms);
    if forall i :: 0 <= i < |tables| ==> |tables[i].headers| == 0 {
      NoHeadersNoMarkdown(tables);
    }
  }

  lemma {:induction false} PrefixShift(tms: seq<string>)
    ensures PrefixEach("\n", seq(|tms|, i requires 0 <= i < |tms| => "\n\n" + tms[i]))
      == PrefixEach("\n\n\n", tms)
  {
    if |tms| > 0 {
      PrefixShift(tms[1..]);
      assert seq(|tms|, i requires 0 <= i < |tms| => "\n\n" + tms[i])[1..]
        == seq(|tms[1..]|, i requires 0 <= i < |tms[1..]| => "\n\n" + tms[1..][i]);
    }
  }

  lemma {:induction false} NoHeadersNoMarkdown(tables: seq<TableData>)
    requires forall i :: 0 <= i < |tables| ==> |tables[i].headers| == 0
    ensures TableMarkdowns(tables) == []
  {
    if |tables| > 0 {
      NoHeadersNoMarkdown(tables[1..]);
    }
  }

  /** The text part of the fallback splits back into the cleaned line list:
      one line per entry, each stripped, none starting the text blank, no two
      blank lines in a row. */
  lemma {:induction false} CleanTextLines(raw: string)
    requires |CleanLines(Split(raw, '\n'))| > 0
    ensures Split(CleanText(raw), '\n') == CleanLines(Split(raw, '\n'))
    ensures WellShaped(Split(CleanText(raw), '\n'))
  {
    CleanLinesSingle(Split(raw, '\n'));
    SplitJoin(CleanLines(Split(raw, '\n')), '\n');
  }

  // ----------------------------------------------------------------------
  // Choosing the page markdown
  // ----------------------------------------------------------------------

  /** The fallback test of `extract_page`: the raw text is non-blank and the
      stripped markdown is shorter than 0.3 times the stripped raw text,
      written exactly as 10 * |md| < 3 * |raw|. */
  predicate UseFallback(md: string, raw: string) {
    Strip(raw) != "" && 10 * |Strip(md)| < 3 * |Strip(raw)|
  }

  /** The markdown `extract_page` stores for a page. */
  function PageMarkdown(md: string, raw: string, tables: seq<TableData>): (r: string)
    ensures r == md || r == BuildFallbackMarkdown(raw, tables)
    ensures Blank(raw) ==> r == md
    ensures 3 * |Strip(raw)| <= 10 * |Strip(md)| ==> r == md
    ensures !Blank(raw) && 10 * |Strip(md)| < 3 * |Strip(raw)| ==> r == BuildFallbackMarkdown(raw, tables)
  {
    if UseFallback(md, raw) then BuildFallbackMarkdown(raw, tables) else md
  }

  /** When the markdown is too short, the stored page markdown is the cleaned
      raw text followed by the tables' markdown, and the cleaned text keeps
      every non-blank raw line, stripped, in order. */
  lemma {:induction false} PageMarkdownFallback(md: string, raw: string, tables: seq<TableData>)
    requires !Blank(raw) && 10 * |Strip(md)| < 3 * |Strip(raw)|
    ensures PageMarkdown(md, raw, tables)
      == CleanText(raw) + PrefixEach("\n\n\n", TableMarkdowns(tables))
    ensures CleanText(raw) == Join("\n", CleanLines(Split(raw, '\n')))
    ensures NonEmpty(CleanLines(Split(raw, '\n'))) == NonBlankStripped(Split(raw, '\n'))
  {
    FallbackLayout(raw, tables);
    CleanKeepsText(Split(raw, '\n'));
  }

  /** `extract_page` for the page at 0-based `pageIndex`, given what
      pymupdf4llm, `get_text` and pdfplumber returned for it. */
  function ExtractPage(pageIndex: nat, md: string, raw: string, tables: seq<TableData>): (r: PageResult)
    ensures r.pageNumber == pageIndex + 1
    ensures r.rawText == raw && r.tables == tables
    ensures r.markdown == PageMarkdown(md, raw, tables)
  {
    PageResult(pageIndex + 1, PageMarkdown(md, raw, tables), raw, tables)
  }
}

=== FILE: models.dfy ===
/** The records the pipeline passes between its stages (src/models.py).
    Bounding boxes, images and the viewer's element list are not modelled. */
module Models {

  datatype Option<T> = None | Some(value: T)

  /** A table found on a page: a header row and data rows of cell strings. */
  datatype TableData = TableData(headers: seq<string>, rows: seq<seq<string>>, page: int)

  /** The extraction result of one page; `pageNumber` is 1-based. */
  datatype PageResult = PageResult(
    pageNumber: int,
    markdown: string,
    rawText: string,
    tables: seq<TableData>)

  /** A section detected in the document; level 1 is the top heading level. */
  datatype Section = Section(
    title: string,
    level: int,
    content: string,
    startPage: int,
    endPage: int)

  /** The metadata dictionary of a chunk. Each constructor is one of the key
      sets the chunker writes; `subChunkIndex` is the optional
      `sub_chunk_index` key, present only on pieces of a split text. */
  datatype Metadata =
    | SectionMeta(
        sectionTitle: string,
        sectionLevel: int,
        startPage: int,
        endPage: int,
        source: string,
        subChunkIndex: Option<nat>)
    | PageMeta(page: int, source: string, subChunkIndex: Option<nat>)
    | TableMeta(page: int, source: string)   // element_type = "table"

  /** A retrieval chunk with its id, text, metadata and token estimate. */
  datatype Chunk = Chunk(id: string, content: string, metadata: Metadata, tokenCount: int)
}

=== FILE: structure.dfy ===
/** Section building of the structure parser (src/structure_parser.py): the
    text between consecutive headings becomes a section (step 6); a document
    without usable headings falls back to one section per non-blank page. */
module Structure {
  import opened Text
  import opened Models
  import opened PageLayout
  import opened FontSizes
  import opened Headings

  // ----------------------------------------------------------------------
  // Step 6: sections between headings
  // ----------------------------------------------------------------------

  /** Python's `s[a:b]` for non-negative bounds: bounds past the end are
      clamped, and a reversed range is empty. */
  function PySlice(s: string, a: nat, b: nat): (r: string)
    ensures a <= b <= |s| ==> r == s[a..b]
    ensures b <= a || |s| <= a ==> r == ""
    ensures |r| <= |s|
  {
    var e := if b > |s| then |s| else b;
    if e <= a then "" else s[a..e]
  }

  /** Where the text of heading `i` ends: at the next heading's offset, or at
      the end of the text after the last heading. */
  function SectionEnd(hs: seq<Heading>, i: nat, textLength: nat): nat {
    if i + 1 < |hs| then hs[i + 1].offset else textLength
  }

  /** The raw text of heading `i`: from its offset up to where it ends. */
  function RawSection(hs: seq<Heading>, i: nat, text: string): string
    requires i < |hs|
  {
    PySlice(text, hs[i].offset, SectionEnd(hs, i, |text|))
  }

  /** Step 6: one section per heading, in heading order, holding the stripped
      text up to the next heading and ending on the page of its last
      character (the last page when that character lies outside the text). */
  function SliceSections(hs: seq<Heading>, l: Layout): (r: seq<Section>)
    ensures |r| == |hs|
    ensures forall i {:trigger r[i]} :: 0 <= i < |r| ==>
      && r[i].title == hs[i].title
      && r[i].level == hs[i].level
      && r[i].startPage == hs[i].page
      && r[i].content == Strip(RawSection(hs, i, l.fullText))
      && r[i].endPage == OffsetToPage(SectionEnd(hs, i, |l.fullText|) - 1, l.offsets)
  {
    seq(|hs|, i requires 0 <= i < |hs| => SectionAt(hs, i, l))
  }

  /** The section of heading `i`. */
  function SectionAt(hs: seq<Heading>, i: nat, l: Layout): Section
    requires i < |hs|
  {
    Section(hs[i].title, hs[i].level, Strip(RawSection(hs, i, l.fullText)), hs[i].page,
            OffsetToPage(SectionEnd(hs, i, |l.fullText|) - 1, l.offsets))
  }

  /** Headings in text order, all within the text. */
  predicate InTextOrder(hs: seq<Heading>, textLength: nat) {
    && (forall i :: 0 <= i < |hs| - 1 ==> hs[i].offset <= hs[i + 1].offset)
    && (forall i :: 0 <= i < |hs| ==> hs[i].offset <= textLength)
  }

  /** The raw sections from heading `k` on. */
  function RawSectionsFrom(hs: seq<Heading>, text: string, k: nat): seq<string>
    requires k <= |hs|
  {
    seq(|hs| - k, j requires 0 <= j < |hs| - k => RawSection(hs, k + j, text))
  }

  /** When the headings are in text order, the raw sections tile the text
      from the first heading to the end: nothing is lost or repeated. */
  lemma {:induction false} SectionsTile(hs: seq<Heading>, text: string)
    requires |hs| > 0
    requires InTextOrder(hs, |text|)
    ensures Concat(RawSectionsFrom(hs, text, 0)) == text[hs[0].offset..]
  {
    TileFrom(hs, text, 0);
  }

  /** `Locate` need not return its headings in text order: when a title no
      longer occurs after the cursor, the search from the page start puts it
      before the heading found last, and the raw sections then repeat text.
      One page reading "xx zz yy", with the spans "xx" (14 pt), "yy" (12 pt)
      and "zz" (10 pt) in that order and the heading sizes 14, 12 and 10,
      gives headings at 0, 6 and 3 of the laid-out text "xx zz yy\n\n"; the
      raw sections "xx zz ", "" and "zz yy\n\n" hold "zz" twice. */
  lemma {:induction false} SectionsOverlap(pages: seq<PageResult>, spans: seq<Span>)
    requires pages == [PageResult(1, "xx zz yy", "xx zz yy", [])]
    requires spans == [Span("xx", 1, 14), Span("yy", 1, 12), Span("zz", 1, 10)]
    ensures var l := LayOut(pages);
      var hs := LocatedHeadings(spans, [14, 12, 10], l);
      && !InTextOrder(hs, |l.fullText|)
      && Concat(RawSectionsFrom(hs, l.fullText, 0)) == "xx zz zz yy\n\n"
  {
    var sizes := [14, 12, 10];
    var l := LayOut(pages);
    OnePageLayout(pages);
    HeadingLinesKept(spans, sizes);
    MergeKeepsSpans(spans);
    LocateOutOfOrder(spans, l, sizes);
    RepeatedText(LocatedHeadings(spans, sizes, l), l.fullText);
  }

  /** The single page is laid out as its markdown and a blank line. */
  lemma {:induction false} OnePageLayout(pages: seq<PageResult>)
    requires pages == [PageResult(1, "xx zz yy", "xx zz yy", [])]
    ensures LayOut(pages) == Layout("xx zz yy\n\n", [PageRange(0, 10, 1)])
  {
    assert pages[..0] == [];
    assert PagePart(pages[0]) == "xx zz yy\n\n";
  }

  /** All three spans pass the heading test and are kept unchanged. */
  lemma {:induction false} HeadingLinesKept(spans: seq<Span>, sizes: seq<int>)
    requires spans == [Span("xx", 1, 14), Span("yy", 1, 12), Span("zz", 1, 10)]
    requires sizes == [14, 12, 10]
    ensures HeadingLines(spans, sizes) == spans
  {
    SpanKept(spans[0], sizes);
    SpanKept(spans[1], sizes);
    SpanKept(spans[2], sizes);
    HeadingLinesSingle(spans[0], sizes);
    HeadingLinesSingle(spans[1], sizes);
    HeadingLinesSingle(spans[2], sizes);
    HeadingLinesAppend([spans[1]], [spans[2]], sizes);
    HeadingLinesAppend([spans[0]], [spans[1], spans[2]], sizes);
    assert spans == [spans[0]] + [spans[1], spans[2]];
  }

  /** A two-letter word in a heading size is a heading line, unchanged by
      stripping. */
  lemma {:induction false} SpanKept(s: Span, sizes: seq<int>)
    requires |s.text| == 2 && 'a' <= s.text[0] <= 'z' && 'a' <= s.text[1] <= 'z'
    requires s.size in sizes
    ensures Strip(s.text) == s.text && IsHeadingLine(s, sizes)
  {
    StripUnpadded(s.text);
    assert !IsDigits(s.text);
  }

  /** No span continues the one before it: their sizes differ. */
  lemma {:induction false} MergeKeepsSpans(spans: seq<Span>)
    requires spans == [Span("xx", 1, 14), Span("yy", 1, 12), Span("zz", 1, 10)]
    ensures Merge(spans) == spans
  {
    MergeWithoutContinuations(spans);
  }

  /** The heading lines "xx", "yy", "zz" land at 0, 6 and 3: "zz" no longer
      occurs after the cursor 8, so the search from the page start places it
      before "yy". */
  lemma {:induction false} LocateOutOfOrder(lines: seq<Span>, l: Layout, sizes: seq<int>)
    requires lines == [Span("xx", 1, 14), Span("yy", 1, 12), Span("zz", 1, 10)]
    requires l == Layout("xx zz yy\n\n", [PageRange(0, 10, 1)])
    requires sizes == [14, 12, 10]
    ensures SizesKnown(lines, sizes)
    ensures Locate(lines, l, sizes, 0) == [Heading("xx", 1, 1, 0), Heading("yy", 2, 1, 6), Heading("zz", 3, 1, 3)]
  {
    OverlapPageStart(l.offsets);
    OverlapFindFirst(l.fullText);
    OverlapFindSecond(l.fullText);
    OverlapFindThird(l.fullText);
    LocateOverlapSteps(lines, l, sizes);
  }

  /** The three heading lines located from the cursor 0, given the searches
      `Locate` runs. */
  lemma {:induction false} LocateOverlapSteps(lines: seq<Span>, l: Layout, sizes: seq<int>)
    requires lines == [Span("xx", 1, 14), Span("yy", 1, 12), Span("zz", 1, 10)]
    requires sizes == [14, 12, 10]
    requires PageStart(l.offsets, 1) == 0
    requires SearchTitle(l.fullText, "xx", 0, 0) == 0
    requires SearchTitle(l.fullText, "yy", 0, 2) == 6
    requires SearchTitle(l.fullText, "zz", 0, 8) == 3
    ensures SizesKnown(lines, sizes)
    ensures Locate(lines, l, sizes, 0) == [Heading("xx", 1, 1, 0), Heading("yy", 2, 1, 6), Heading("zz", 3, 1, 3)]
  {
    var second := lines[1..];
    var third := second[1..];
    assert second == [Span("yy", 1, 12), Span("zz", 1, 10)];
    assert third == [Span("zz", 1, 10)];
    var h3 := [Heading("zz", 3, 1, 3)];
    var h2 := [Heading("yy", 2, 1, 6)] + h3;
    assert SizesKnown(third, sizes) && Locate(third, l, sizes, 8) == h3 by {
      SizesKnownAll(third, sizes);
      OverlapLevels(sizes);
      LocateKeep(third, l, sizes, 8, 3);
      assert third[1..] == [];
    }
    assert SizesKnown(second, sizes) && Locate(second, l, sizes, 2) == h2 by {
      OverlapLevels(sizes);
      LocateKeep(second, l, sizes, 2, 6);
    }
    assert SizesKnown(lines, sizes) by {
      SizesKnownAll(lines, sizes);
    }
    assert Locate(lines, l, sizes, 0) == [Heading("xx", 1, 1, 0)] + h2 by {
      OverlapLevels(sizes);
      LocateKeep(lines, l, sizes, 0, 0);
    }
    assert [Heading("xx", 1, 1, 0)] + h2 == [Heading("xx", 1, 1, 0), Heading("yy", 2, 1, 6), Heading("zz", 3, 1, 3)];
  }

  lemma {:induction false} OverlapLevels(sizes: seq<int>)
    requires sizes == [14, 12, 10]
    ensures LevelOf(sizes, 14) == 1 && LevelOf(sizes, 12) == 2 && LevelOf(sizes, 10) == 3
  {
    assert sizes[1..] == [12, 10] && sizes[1..][1..] == [10];
  }

  /** The page starts at 0 of the text. */
  lemma {:induction false} OverlapPageStart(offsets: seq<PageRange>)
    requires offsets == [PageRange(0, 10, 1)]
    ensures PageStart(offsets, 1) == 0
  {
  }

  /** "xx" is found at 0 from the cursor 0. */
  lemma {:induction false} OverlapFindFirst(text: string)
    requires text == "xx zz yy\n\n"
    ensures SearchTitle(text, "xx", 0, 0) == 0
  {
    assert text[0..2] == "xx";
    assert Find(text, "xx", 0) == 0;
  }

  /** "yy" is found at 6 from the cursor 2. */
  lemma {:induction false} OverlapFindSecond(text: string)
    requires text == "xx zz yy\n\n"
    ensures SearchTitle(text, "yy", 0, 2) == 6
  {
    assert text[6..8] == "yy";
    assert Find(text, "yy", 6) == 6;
    assert text[5..7][0] == ' ';
    assert Find(text, "yy", 5) == 6;
    assert text[4..6][0] == 'z';
    assert Find(text, "yy", 4) == 6;
    assert text[3..5][0] == 'z';
    assert Find(text, "yy", 3) == 6;
    assert text[2..4][0] == ' ';
    assert Find(text, "yy", 2) == 6;
  }

  /** "zz" is not found after the cursor 8, and the search from the page
      start finds it at 3. */
  lemma {:induction false} OverlapFindThird(text: string)
    requires text == "xx zz yy\n\n"
    ensures SearchTitle(text, "zz", 0, 8) == 3
  {
    assert Find(text, "zz", 9) == -1;
    assert text[8..10][0] == '\n';
    assert Find(text, "zz", 8) == -1;
    assert text[3..5] == "zz";
    assert Find(text, "zz", 3) == 3;
    assert text[2..4][0] == ' ';
    assert Find(text, "zz", 2) == 3;
    assert text[1..3][0] == 'x';
    assert Find(text, "zz", 1) == 3;
    assert text[0..2][0] == 'x';
    assert Find(text, "zz", 0) == 3;
  }

  /** The headings at 0, 6 and 3 cut "xx zz yy\n\n" into "xx zz ", "" and
      "zz yy\n\n", which repeat "zz". */
  lemma {:induction false} RepeatedText(hs: seq<Heading>, text: string)
    requires hs == [Heading("xx", 1, 1, 0), Heading("yy", 2, 1, 6), Heading("zz", 3, 1, 3)]
    requires text == "xx zz yy\n\n"
    ensures !InTextOrder(hs, |text|)
    ensures Concat(RawSectionsFrom(hs, text, 0)) == "xx zz zz yy\n\n"
  {
    var rs := RawSectionsFrom(hs, text, 0);
    assert rs[0] == text[0..6] == "xx zz ";
    assert rs[1] == "";
    assert rs[2] == text[3..10] == "zz yy\n\n";
    assert rs == ["xx zz ", "", "zz yy\n\n"];
    assert rs[1..] == ["", "zz yy\n\n"] && rs[1..][1..] == ["zz yy\n\n"] && rs[1..][1..][1..] == [];
    assert Concat(["zz yy\n\n"]) == "zz yy\n\n" + Concat([]);
    assert Concat(["", "zz yy\n\n"]) == "" + Concat(["zz yy\n\n"]);
    assert Concat(rs) == "xx zz " + Concat(["", "zz yy\n\n"]);
  }

  lemma {:induction false} TileFrom(hs: seq<Heading>, text: string, k: nat)
    requires k < |hs|
    requires InTextOrder(hs, |text|)
    ensures Concat(RawSectionsFrom(hs, text, k)) == text[hs[k].offset..]
    decreases |hs| - k
  {
    var rs := RawSectionsFrom(hs, text, k);
    assert rs[0] == RawSection(hs, k, text);
    if k + 1 == |hs| {
      assert SectionEnd(hs, k, |text|) == |text|;
      assert rs[0] == text[hs[k].offset..|text|];
      assert |rs| == 1 && rs[1..] == [];
    } else {
      TileFrom(hs, text, k + 1);
      assert rs[1..] == RawSectionsFrom(hs, text, k + 1);
      assert SectionEnd(hs, k, |text|) == hs[k + 1].offset;
      assert rs[0] == text[hs[k].offset..hs[k + 1].offset];
      assert text[hs[k].offset..] == text[hs[k].offset..hs[k + 1].offset] + text[hs[k + 1].offset..];
    }
  }

  /** On a layout, a section that ends inside the text ends on the page whose
      range holds its last character. */
  lemma {:induction false} SectionEndPage(pages: seq<PageResult>, hs: seq<Heading>, i: nat)
    requires i < |hs|
    requires 0 < SectionEnd(hs, i, |LayOut(pages).fullText|) <= |LayOut(pages).fullText|
    ensures exists k ::
              && 0 <= k < |pages|
              && InRange(LayOut(pages).offsets[k], SectionEnd(hs, i, |LayOut(pages).fullText|) - 1)
              && SliceSections(hs, LayOut(pages))[i].endPage == pages[k].pageNumber
  {
    var l := LayOut(pages);
    var last := SectionEnd(hs, i, |l.fullText|) - 1;
    var k := LayoutCovers(pages, last);
    OffsetToPageOnLayout(pages, k, last);
    EndPageOf(hs, l, i);
    assert InRange(l.offsets[k], last) && SliceSections(hs, l)[i].endPage == pages[k].pageNumber;
  }

  /** The end page of section `i` is the page of its last character. */
  lemma {:induction false} EndPageOf(hs: seq<Heading>, l: Layout, i: nat)
    requires i < |hs|
    ensures SliceSections(hs, l)[i].endPage == OffsetToPage(SectionEnd(hs, i, |l.fullText|) - 1, l.offsets)
  {
  }

  // ----------------------------------------------------------------------
  // `_fallback_pages`
  // ----------------------------------------------------------------------

  /** A stripped line can serve as a page title: longer than two characters
      and not an image reference. */
  predicate Meaningful(line: string) {
    |line| > 2 && !StartsWith(line, "![")
  }

  /** The index of the first line that is meaningful once stripped. */
  function FirstMeaningful(lines: seq<string>): (r: Option<nat>)
    ensures r.Some? ==> r.value < |lines| && Meaningful(Strip(lines[r.value]))
    ensures r.Some? ==> forall j :: 0 <= j < r.value ==> !Meaningful(Strip(lines[j]))
    ensures r.None? <==> forall j :: 0 <= j < |lines| ==> !Meaningful(Strip(lines[j]))
  {
    var flags := seq(|lines|, j requires 0 <= j < |lines| => Meaningful(Strip(lines[j])));
    assert forall j :: 0 <= j < |lines| ==> (flags[j] <==> Meaningful(Strip(lines[j])));
    FirstTrue(flags, 0)
  }

  /** The index of the first `true` at or after `k`. */
  function FirstTrue(flags: seq<bool>, k: nat): (r: Option<nat>)
    requires k <= |flags|
    ensures r.Some? ==> k <= r.value < |flags| && flags[r.value]
    ensures r.Some? ==> forall j :: k <= j < r.value ==> !flags[j]
    ensures r.None? <==> forall j :: k <= j < |flags| ==> !flags[j]
    decreases |flags| - k
  {
    if k == |flags| then None
    else if flags[k] then Some(k)
    else FirstTrue(flags, k + 1)
  }

  /** The title of a fallback page section: the first meaningful line of the
      page text cut to 80 characters, else "Page n". */
  function FallbackTitle(text: string, pageNumber: int): (r: string)
    ensures !Blank(r)
    ensures FirstMeaningful(Split(text, '\n')).None? ==> r == "Page " + IntToString(pageNumber)
    ensures FirstMeaningful(Split(text, '\n')).Some? ==>
      var line := Strip(Split(text, '\n')[FirstMeaningful(Split(text, '\n')).value]);
      |r| == (if |line| < 80 then |line| else 80) && r <= line
  {
    var lines := Split(text, '\n');
    match FirstMeaningful(lines)
    case None => assert ("Page " + IntToString(pageNumber))[0] == 'P'; "Page " + IntToString(pageNumber)
    case Some(k) =>
      var line := Strip(lines[k]);
      assert Take(line, 80)[0] == line[0];
      Take(line, 80)
  }

  /** The section a non-blank page falls back to. */
  function PageSection(p: PageResult): Section {
    var text := Strip(p.markdown);
    Section(FallbackTitle(text, p.pageNumber), 1, text, p.pageNumber, p.pageNumber)
  }

  /** `_fallback_pages`: the section of each non-blank page, in page order. */
  function FallbackPages(pages: seq<PageResult>): (r: seq<Section>)
    ensures |r| == |NonBlankPages(pages)|
    ensures forall i :: 0 <= i < |r| ==>
      r[i].level == 1 && r[i].startPage == r[i].endPage && !Blank(r[i].content)
  {
    var nb := NonBlankPages(pages);
    assert forall i :: 0 <= i < |nb| ==> nb[i] in nb;
    seq(|nb|, i requires 0 <= i < |nb| => PageSection(nb[i]))
  }

  /** The i-th fallback section belongs to the i-th non-blank page: a
      level-1 section holding the page's stripped markdown, starting and
      ending on that page, titled by its first meaningful line (cut to 80
      characters) or "Page N". */
  lemma {:induction false} FallbackPagesShape(pages: seq<PageResult>, i: nat)
    requires i < |FallbackPages(pages)|
    ensures FallbackPages(pages)[i].level == 1
    ensures FallbackPages(pages)[i].content == Strip(NonBlankPages(pages)[i].markdown)
    ensures FallbackPages(pages)[i].startPage == FallbackPages(pages)[i].endPage == NonBlankPages(pages)[i].pageNumber
    ensures FallbackPages(pages)[i].title
      == FallbackTitle(Strip(NonBlankPages(pages)[i].markdown), NonBlankPages(pages)[i].pageNumber)
    ensures !Blank(FallbackPages(pages)[i].title) && !Blank(FallbackPages(pages)[i].content)
  {
    var p := NonBlankPages(pages)[i];
    assert p in NonBlankPages(pages);
  }

  /** There are no fallback sections exactly when every page is blank. */
  lemma {:induction false} FallbackPagesEmpty(pages: seq<PageResult>)
    ensures FallbackPages(pages) == [] <==> forall i :: 0 <= i < |pages| ==> Blank(pages[i].markdown)
  {
    NonBlankPagesEmpty(pages);
  }

  // ----------------------------------------------------------------------
  // `parse`
  // ----------------------------------------------------------------------

  /** `parse`: when the spans show heading sizes and some heading is found in
      the text, the sections between headings; otherwise the page fallback.
      Every section has a level from 1 to the number of heading levels kept. */
  function Parse(pages: seq<PageResult>, spans: seq<Span>, maxLevels: int): (r: seq<Section>)
    ensures forall i :: 0 <= i < |r| ==> 1 <= r[i].level
    ensures maxLevels >= 1 ==> forall i :: 0 <= i < |r| ==> r[i].level <= maxLevels
  {
    var keys := SizeKeys(spans);
    if |keys| == 0 then FallbackPages(pages)
    else
      var body := BodySize(spans);
      var sizes := HeadingSizes(keys, body, maxLevels);
      if |sizes| == 0 then FallbackPages(pages)
      else
        var l := LayOut(pages);
        SectionsOrFallback(pages, LocatedHeadings(spans, sizes, l), l, |sizes|)
  }

  /** Step 6, or the page fallback when no heading was located. With heading
      levels from 1 to `bound`, every section's level lies there too. */
  function SectionsOrFallback(pages: seq<PageResult>, hs: seq<Heading>, l: Layout, bound: int): (r: seq<Section>)
    requires bound >= 1
    requires forall i :: 0 <= i < |hs| ==> 1 <= hs[i].level <= bound
    ensures forall i :: 0 <= i < |r| ==> 1 <= r[i].level <= bound
  {
    if |hs| == 0 then FallbackPages(pages) else SliceSections(hs, l)
  }

  /** Steps 4 and 5: the heading lines, merged and located in the text.
      Their levels lie in 1..len(heading_sizes). */
  function LocatedHeadings(spans: seq<Span>, sizes: seq<int>, l: Layout): (r: seq<Heading>)
    ensures forall i :: 0 <= i < |r| ==> 1 <= r[i].level <= |sizes|
  {
    var lines := HeadingLines(spans, sizes);
    MergeKeepsKinds(lines, sizes);
    SizesKnownAll(Merge(lines), sizes);
    Locate(Merge(lines), l, sizes, 0)
  }

  /** A non-blank title occurs nowhere in a blank text. */
  lemma {:induction false} NotInBlank(text: string, title: string, j: int)
    requires Blank(text) && !Blank(title)
    ensures !OccursAt(text, title, j)
  {
  }

  lemma {:induction false} NothingFindable(hs: seq<Span>, l: Layout)
    requires Blank(l.fullText)
    requires forall i :: 0 <= i < |hs| ==> !Blank(hs[i].text)
    ensures FindableOnes(hs, l) == []
  {
    if |hs| > 0 {
      forall j | PageStart(l.offsets, hs[0].page) <= j
        ensures !OccursAt(l.fullText, hs[0].text, j)
      {
        NotInBlank(l.fullText, hs[0].text, j);
      }
      assert forall i :: 0 <= i < |hs| - 1 ==> hs[1..][i] == hs[i + 1];
      NothingFindable(hs[1..], l);
    }
  }

  /** Which way `parse` goes: the page fallback when no span gives a size
      key, when no size is larger than the body size, or when no heading is
      located in the text; the sections between the located headings
      otherwise. */
  lemma {:induction false} ParseRoutes(pages: seq<PageResult>, spans: seq<Span>, maxLevels: int)
    ensures |SizeKeys(spans)| == 0 ==> Parse(pages, spans, maxLevels) == FallbackPages(pages)
    ensures |SizeKeys(spans)| > 0 ==>
      var sizes := HeadingSizes(SizeKeys(spans), BodySize(spans), maxLevels);
      var l := LayOut(pages);
      && (|sizes| == 0 ==> Parse(pages, spans, maxLevels) == FallbackPages(pages))
      && (|sizes| > 0 && |LocatedHeadings(spans, sizes, l)| == 0 ==>
            Parse(pages, spans, maxLevels) == FallbackPages(pages))
      && (|sizes| > 0 && |LocatedHeadings(spans, sizes, l)| > 0 ==>
            Parse(pages, spans, maxLevels) == SliceSections(LocatedHeadings(spans, sizes, l), l))
  {
  }

  /** The parser yields no section exactly when every page is blank: a
      heading title is never blank, so it cannot be found in a blank text. */
  lemma {:induction false} ParseEmpty(pages: seq<PageResult>, spans: seq<Span>, maxLevels: int)
    ensures Parse(pages, spans, maxLevels) == [] <==> forall i :: 0 <= i < |pages| ==> Blank(pages[i].markdown)
  {
    var keys := SizeKeys(spans);
    var r := Parse(pages, spans, maxLevels);
    if |keys| > 0 {
      var body := BodySize(spans);
      var sizes := HeadingSizes(keys, body, maxLevels);
      if |sizes| > 0 {
        var l := LayOut(pages);
        var hs := LocatedHeadings(spans, sizes, l);
        if |hs| > 0 {
          assert r == SliceSections(hs, l);
          if forall i :: 0 <= i < |pages| ==> Blank(pages[i].markdown) {
            LocatedNeedsText(pages, spans, sizes);
          }
          return;
        }
      }
    }
    assert r == FallbackPages(pages);
    FallbackPagesEmpty(pages);
  }

  /** Headings are found only in a document with some non-blank page. */
  lemma {:induction false} LocatedNeedsText(pages: seq<PageResult>, spans: seq<Span>, sizes: seq<int>)
    requires forall i :: 0 <= i < |pages| ==> Blank(pages[i].markdown)
    ensures LocatedHeadings(spans, sizes, LayOut(pages)) == []
  {
    var lines := HeadingLines(spans, sizes);
    MergeKeepsKinds(lines, sizes);
    SizesKnownAll(Merge(lines), sizes);
    BlankPagesBlankText(pages);
    NothingFindable(Merge(lines), LayOut(pages));
    LocateKeepsFindable(Merge(lines), LayOut(pages), sizes, 0);
  }
}

=== FILE: text.dfy ===
/** Python string operations the pipeline relies on, over `string` (one `char`
    per code point): `str.isspace`, `str.strip`, `str.split(sep)` with a
    one-character separator, `sep.join(parts)`, `str.find(sub, start)`,
    `str.isdigit`, `str.startswith` and `str(int)`. */
module Text {

  /** Python's `str.isspace()` for a single code point. */
  predicate IsSpace(c: char) {
    var n := c as int;
    || (9 <= n <= 13) || (28 <= n <= 32) || n == 0x85 || n == 0xA0 || n == 0x1680
    || (0x2000 <= n <= 0x200A) || n == 0x2028 || n == 0x2029 || n == 0x202F
    || n == 0x205F || n == 0x3000
  }

  /** True when `strip()` leaves nothing: Python's `not s.strip()`. */
  predicate Blank(s: string) {
    forall k :: 0 <= k < |s| ==> IsSpace(s[k])
  }

  /** Number of leading whitespace characters. */
  function LeadCount(s: string): (n: nat)
    ensures n <= |s|
    ensures forall k :: 0 <= k < n ==> IsSpace(s[k])
    ensures n < |s| ==> !IsSpace(s[n])
  {
    if |s| == 0 || !IsSpace(s[0]) then 0 else 1 + LeadCount(s[1..])
  }

  /** Number of trailing whitespace characters. */
  function TrailCount(s: string): (n: nat)
    ensures n <= |s|
    ensures forall k :: |s| - n <= k < |s| ==> IsSpace(s[k])
    ensures n < |s| ==> !IsSpace(s[|s| - n - 1])
  {
    if |s| == 0 || !IsSpace(s[|s| - 1]) then 0 else 1 + TrailCount(s[..|s| - 1])
  }

  /** Python's `str.strip()`: the infix of `s` left after removing leading and
      trailing whitespace. */
  function Strip(s: string): (r: string)
    ensures |r| <= |s|
    ensures |r| > 0 ==> !IsSpace(r[0]) && !IsSpace(r[|r| - 1])
    ensures |r| == 0 <==> Blank(s)
  {
    var t := s[LeadCount(s)..];
    t[..|t| - TrailCount(t)]
  }

  /** What `strip()` removes is whitespace on both ends, and what it keeps is
      the infix of `s` that follows the leading whitespace. */
  lemma {:induction false} StripInfix(s: string)
    ensures LeadCount(s) + |Strip(s)| <= |s|
    ensures Strip(s) == s[LeadCount(s)..LeadCount(s) + |Strip(s)|]
    ensures forall k :: 0 <= k < |s| && (k < LeadCount(s) || LeadCount(s) + |Strip(s)| <= k) ==> IsSpace(s[k])
  {
  }

  /** Stripping twice is stripping once. */
  lemma {:induction false} StripIdempotent(s: string)
    ensures Strip(Strip(s)) == Strip(s)
  {
    var r := Strip(s);
    if |r| > 0 {
      assert LeadCount(r) == 0;
      assert TrailCount(r) == 0;
    }
  }

  /** A string with no whitespace at either end is its own strip. */
  lemma {:induction false} StripUnpadded(s: string)
    requires |s| > 0 && !IsSpace(s[0]) && !IsSpace(s[|s| - 1])
    ensures Strip(s) == s
  {
    assert LeadCount(s) == 0;
    assert TrailCount(s) == 0;
  }

  /** A character absent from `s` is absent from `Strip(s)`. */
  lemma {:induction false} StripAvoids(s: string, c: char)
    requires c !in s
    ensures c !in Strip(s)
  {
    StripInfix(s);
    var r := Strip(s);
    forall k | 0 <= k < |r| ensures r[k] != c {
      assert r[k] == s[LeadCount(s) + k];
    }
  }

  /** Python's `s.split(c)` for a one-character separator `c`. */
  function Split(s: string, c: char): (r: seq<string>)
    ensures |r| >= 1
    ensures forall i :: 0 <= i < |r| ==> c !in r[i]
  {
    if |s| == 0 then [""]
    else
      var rest := Split(s[1..], c);
      if s[0] == c then [""] + rest else [[s[0]] + rest[0]] + rest[1..]
  }

  /** Python's `sep.join(parts)`. */
  function Join(sep: string, parts: seq<string>): string {
    if |parts| == 0 then ""
    else if |parts| == 1 then parts[0]
    else parts[0] + sep + Join(sep, parts[1..])
  }

  /** Concatenation of all `parts`, in order. */
  function Concat(parts: seq<string>): string {
    if |parts| == 0 then "" else parts[0] + Concat(parts[1..])
  }

  /** `pat` occurs in `text` starting at index `i`. */
  predicate OccursAt(text: string, pat: string, i: int) {
    0 <= i && i + |pat| <= |text| && text[i..i + |pat|] == pat
  }

  /** Python's `text.find(pat, start)` for a non-negative `start`: the lowest
      index at or after `start` where `pat` occurs, or -1. */
  function Find(text: string, pat: string, start: nat): (r: int)
    ensures r == -1 || (start <= r && OccursAt(text, pat, r))
    ensures r == -1 <==> forall j :: start <= j ==> !OccursAt(text, pat, j)
    ensures forall j :: start <= j < r ==> !OccursAt(text, pat, j)
    decreases |text| - start
  {
    if start + |pat| > |text| then -1
    else if text[start..start + |pat|] == pat then start
    else Find(text, pat, start + 1)
  }

  /** Python's `str.isdigit()`, restricted to the ASCII digits. */
  predicate IsDigits(s: string) {
    |s| > 0 && forall k :: 0 <= k < |s| ==> '0' <= s[k] <= '9'
  }

  /** Python's `s.startswith(p)`. */
  predicate StartsWith(s: string, p: string) {
    |p| <= |s| && s[..|p|] == p
  }

  /** Python's `s[:n]` for a non-negative `n`. */
  function Take(s: string, n: nat): (r: string)
    ensures |r| == if n < |s| then n else |s|
    ensures r <= s
  {
    if n < |s| then s[..n] else s
  }

  /** Python's `str(n)` for a natural number. */
  function NatToString(n: nat): (r: string)
    ensures |r| >= 1
    ensures IsDigits(r)
  {
    if n < 10 then ["0123456789"[n]] else NatToString(n / 10) + ["0123456789"[n % 10]]
  }

  /** Python's `str(i)` for an integer. */
  function IntToString(i: int): (r: string)
    ensures |r| >= 1
  {
    if i < 0 then "-" + NatToString(-i) else NatToString(i)
  }

  // ----------------------------------------------------------------------
  // Lemmas about split and join
  // ----------------------------------------------------------------------

  /** A string without the separator splits into itself. */
  lemma {:induction false} SplitNoSeparator(x: string, c: char)
    requires c !in x
    ensures Split(x, c) == [x]
  {
    if |x| > 0 {
      assert c !in x[1..];
      SplitNoSeparator(x[1..], c);
      assert [x[0]] + x[1..] == x;
    }
  }

  /** Splitting `x + c + y` where `x` holds no separator peels `x` off. */
  lemma {:induction false} SplitAfterPiece(x: string, y: string, c: char)
    requires c !in x
    ensures Split(x + [c] + y, c) == [x] + Split(y, c)
  {
    var s := x + [c] + y;
    if |x| == 0 {
      assert s[0] == c && s[1..] == y;
    } else {
      assert s[0] == x[0];
      assert s[1..] == x[1..] + [c] + y;
      SplitAfterPiece(x[1..], y, c);
      assert [x[0]] + x[1..] == x;
    }
  }

  /** Joining on a one-character separator and splitting on it again returns
      the parts, when no part holds the separator. */
  lemma {:induction false} SplitJoin(parts: seq<string>, c: char)
    requires |parts| >= 1
    requires forall i :: 0 <= i < |parts| ==> c !in parts[i]
    ensures Split(Join([c], parts), c) == parts
  {
    if |parts| == 1 {
      SplitNoSeparator(parts[0], c);
    } else {
      SplitJoin(parts[1..], c);
      SplitAfterPiece(parts[0], Join([c], parts[1..]), c);
      assert [parts[0]] + parts[1..] == parts;
    }
  }

  /** Splitting and joining again on the same character gives back the text. */
  lemma {:induction false} JoinSplit(s: string, c: char)
    ensures Join([c], Split(s, c)) == s
  {
    if |s| > 0 {
      var rest := Split(s[1..], c);
      JoinSplit(s[1..], c);
      if s[0] == c {
        assert Split(s, c) == [""] + rest;
        assert ([""] + rest)[1..] == rest;
        assert s == [c] + s[1..];
      } else {
        var r := [[s[0]] + rest[0]] + rest[1..];
        assert Split(s, c) == r;
        assert r[1..] == rest[1..];
        if |rest| == 1 {
          assert s == [s[0]] + s[1..];
        } else {
          assert Join([c], rest) == rest[0] + [c] + Join([c], rest[1..]);
          assert s == [s[0]] + s[1..];
        }
      }
    }
  }

  /** Splitting off the last element of a non-empty right operand. */
  lemma SnocSplit<T>(p: seq<T>, q: seq<T>)
    requires |q| > 0
    ensures p + q == (p + q[..|q| - 1]) + [q[|q| - 1]]
    ensures q == q[..|q| - 1] + [q[|q| - 1]]
  {
    assert q == q[..|q| - 1] + [q[|q| - 1]];
  }

  /** A prefix of a prefix is a prefix. */
  lemma {:induction false} StartsWithTrans(s: string, p: string, q: string)
    requires StartsWith(s, p) && StartsWith(p, q)
    ensures StartsWith(s, q)
  {
    assert s[..|q|] == p[..|q|];
  }

  /** The same text in front keeps a prefix a prefix. */
  lemma {:induction false} StartsWithFront(a: string, s: string, p: string)
    requires StartsWith(s, p)
    ensures StartsWith(a + s, a + p) && StartsWith(a + s, a)
  {
    assert (a + s)[..|a + p|] == a + s[..|p|];
    assert (a + s)[..|a|] == a;
  }

  /** Joining a first part in front of a non-empty list adds it and a separator. */
  lemma {:induction false} JoinCons(sep: string, a: string, xs: seq<string>)
    ensures |xs| == 0 ==> Join(sep, [a] + xs) == a
    ensures |xs| > 0 ==> Join(sep, [a] + xs) == a + sep + Join(sep, xs)
  {
    assert ([a] + xs)[0] == a;
    assert ([a] + xs)[1..] == xs;
  }

  /** A join starts with its first part. */
  lemma {:induction false} JoinPrefix(sep: string, xs: seq<string>)
    requires |xs| > 0
    ensures StartsWith(Join(sep, xs), xs[0])
  {
    if |xs| > 1 {
      assert Join(sep, xs) == xs[0] + (sep + Join(sep, xs[1..]));
    }
  }

  /** Joining one more part appends the separator and that part. */
  lemma {:induction false} JoinSnoc(sep: string, xs: seq<string>, y: string)
    requires |xs| >= 1
    ensures Join(sep, xs + [y]) == Join(sep, xs) + sep + y
  {
    if |xs| > 1 {
      assert (xs + [y])[1..] == xs[1..] + [y];
      JoinSnoc(sep, xs[1..], y);
    } else {
      assert (xs + [y])[1..] == [y];
    }
  }

  /** A character absent from every part and from the separator is absent
      from the join. */
  lemma {:induction false} JoinAvoids(sep: string, parts: seq<string>, c: char)
    requires c !in sep
    requires forall i :: 0 <= i < |parts| ==> c !in parts[i]
    ensures c !in Join(sep, parts)
  {
    if |parts| > 1 {
      JoinAvoids(sep, parts[1..], c);
    }
  }
}
